=== FILE: README.md ===
# Schema builder of yaml_metadata, in Dafny

`yaml_metadata.py` turns a tree of `!Table` definitions into a relational
schema. Each definition has a name, an optional primary-key field and an
ordered mapping of columns. A column value is either a type name or a nested
`!Table`. The builder walks the tree depth first:

- A table name that is already registered is skipped. This is what makes
  cyclic definitions terminate.
- The primary key is fixed first: the declared key entry, or else an integer
  `id`.
- The table is registered holding only that key.
- Ordinary columns are appended in declaration order.
- Every nested table is built, and then gets a foreign-key column
  `<parent>_<parent key>` that points at the parent's key.

This project models that builder as pure functions over immutable data and
proves what it promises.

- `Wrappers` holds `Option` and `Result`.
- `ColumnTypes` is the catalogue of column types that a type name resolves
  against.
- `Schema` is the registry that stands in for SQLAlchemy's `MetaData`:
  - an ordered sequence of tables, each a name, a key column and an ordered
    sequence of columns;
  - a column is a name, an optional type and an optional foreign-key target;
  - lookup by name, registration, appending a column;
  - the invariant a built registry keeps (`WellFormed`): unique names, key
    first, and every foreign key named after a registered primary key it
    points at.
- `YamlMetadata` holds the input definition (`TableDefinition`) and the
  builder: `ConstructColumn`, `KeyColumn`, `ConstructForeignKey` and the
  mutually recursive `ConstructTable` / `ConstructColumns`.
  - The definition is a finite tree. A cycle shows up as a repeated name,
    which the registry check cuts, so the recursion terminates structurally.
- `ConstructProofs` holds the induction proofs about a build:
  - the registry stays well formed;
  - the shape of every new table;
  - where errors come from;
  - one-step lemmas that compute a build one entry at a time.
- `Generation` holds:
  - the whole-schema entry point;
  - the promises about whole definitions: key first, rebuild is a no-op,
    self and mutual references, unknown types;
  - the sample `people`/`items` schema of the source.

The two places where the code does not do what its comments say are modelled
as the comments intend:

- The foreign-key column is named with the parent key's bare name (`people_id`).
  The code at `yaml_metadata.py:48` formats the key column object itself; see
  "## Findings".
- An explicit key (`yaml_metadata.py:72-73`) is the table's primary key, as
  `yaml_metadata.py:69-70` and `:74` say. The code builds it without
  `primary_key=True`. As written, such a table has no primary key, so
  `next(iter(...))` at `yaml_metadata.py:45` raises StopIteration as soon as
  it nests a child. The `LinkRedefinesKey` refusal belongs to the intended
  reading only: as written, the child's declared key is a plain column, and
  the foreign key of the same name would replace it.

Where the code raises, the model returns a `Failure` with a `SchemaError`.
The model then says nothing about the partially built registry.

## Model

| member | source | states |
|---|---|---|
| ColumnTypes.Resolve | yaml_metadata.py:28 | A type name resolves to a catalogued type exactly when some type carries that name; the type found carries the name asked for. |
| ColumnTypes.ResolveTypeName | yaml_metadata.py:28 | Looking up a type's own name finds that type: resolution inverts naming. |
| Schema.UnknownTypeMessageNamesBoth | yaml_metadata.py:29-30 | The unknown-type message quotes both the type name and the column name. |
| Schema.Find | yaml_metadata.py:66 | The position of the first table with the name; none exactly when no table has that name. |
| Schema.Register | yaml_metadata.py:82 | Registering a fresh name appends the table at the end, after exactly the earlier tables in their order; a taken name is refused. |
| Schema.AppendColumn | yaml_metadata.py:51-55 | Appending to a registered table adds the column at its end and changes no other table; an unregistered table is an error. |
| YamlMetadata.Lookup | yaml_metadata.py:73 | The entry found is one declared under that name; nothing is found exactly when no entry has the name. |
| YamlMetadata.ConstructColumn | yaml_metadata.py:18-30 | Succeeds exactly when the type name is catalogued, giving a column with that name and a type named as asked; otherwise the error names the type and the column. |
| YamlMetadata.KeyColumn | yaml_metadata.py:69-77 | No declared key gives the integer `id`. A declared key takes its entry's name and catalogued type. A missing entry, a nested-table entry or an unknown type each gives its own error. |
| YamlMetadata.ConstructForeignKey | yaml_metadata.py:33-55 | The child table gains exactly one column, at its end: `<parent>_<key>` referencing the parent's key. Every other table is unchanged. A child not registered is an error, and so is a child whose own key already has that name. |
| YamlMetadata.ConstructTable | yaml_metadata.py:58-91 | An already registered name leaves the registry untouched. A success only extends the registry and registers the table. A bad key fails with the key's error. |
| YamlMetadata.ConstructColumns | yaml_metadata.py:84-91 | Processing the remaining entries only extends the registry: names, keys and existing columns stay. A success means no remaining ordinary entry is named as the key. |
| ConstructProofs.ConstructTableWellFormed | yaml_metadata.py:58-91 | A build keeps the registry well formed: unique names, key first, every foreign key named after and pointing at a registered primary key. |
| ConstructProofs.ConstructTableShape | yaml_metadata.py:69-91 | A new table is registered after the existing ones with its key first. Its ordinary columns follow in declaration order, all of catalogued types and none named as the key. Each nested child holds a foreign key to it. No existing table loses or gains an ordinary column. |
| ConstructProofs.ConstructTableFrame | yaml_metadata.py:58-91 | Every existing table outside the built tree is left exactly as it was. When no nested table shares the new table's name, that table holds exactly its key and then its own ordinary columns. |
| ConstructProofs.ConstructTableErrors | yaml_metadata.py:58-91 | A build fails only for a definition error or a refused foreign key. An unknown type it reports is declared under that column name somewhere in the tree. A column it reports as redefining the key is declared somewhere in the tree. A refused foreign key is one some table of the tree links a nested table back with. |
| ConstructProofs.ConstructTableKeysAlone | yaml_metadata.py:58-91 | No build gives a table a second column named as its key: tables that had their key alone keep it so, and every new table has it alone. |
| ConstructProofs.ConstructTableNames | yaml_metadata.py:58-91 | A build adds only tables of the definition's own tree: each new table is called like the definition or like a table nested in it at some depth. |
| Generation.GenerateMetadata | yaml_metadata.py:94-106 | The root's table is first, holding its key and then its own columns; when no nested table shares its name, exactly those. The registry is well formed, no table repeats its key's name, and every table is the root or one nested in its definition tree. A failure is always a definition error or a refused foreign key. |
| Generation.OwnColumnsInDeclarationOrder | yaml_metadata.py:84-91 | When the remaining entries are all ordinary and not the key, the table's own columns equal an independent position-by-position conversion of those entries. |
| Generation.OwnColumnsAvoidKey | yaml_metadata.py:74-75 | No ordinary column repeats an explicit key's name. |
| Generation.OwnColumnsAvoidName | yaml_metadata.py:84-91 | When no ordinary entry has a given name, no own column of the table has it. |
| Generation.PrimaryKeyFirst | yaml_metadata.py:69-82 | The new table's first column is its key: the integer `id` by default, or else the declared key with its declared type. The key's name is not repeated among the later columns, with either kind of key. |
| Generation.RebuildIsNoOp | yaml_metadata.py:64-67 | Building a definition again on the registry it produced changes nothing. |
| Generation.UnknownTypeFailsBuild | yaml_metadata.py:90-91 | A new table with an ordinary column of unknown type makes the whole build fail. |
| Generation.KeyClashFailsBuild | yaml_metadata.py:76-91 | A new table with no declared key and an ordinary entry called `id` fails to build: that entry would redefine the default key. |
| Generation.LinkClashFailsBuild | yaml_metadata.py:47-55 | In a new parent with the default key, an entry nesting a new child whose declared key is `<parent>_id` fails the build: the foreign key would redefine that key. |
| Generation.FirstColumnUnknown | yaml_metadata.py:82-91 | A new table whose first entry has an unknown type fails with exactly that type and column. |
| Generation.SelfReference | yaml_metadata.py:79-89 | A default-keyed table whose only entry nests itself is built once, and carries a foreign key `<name>_id` to its own key. |
| Generation.BuildBackReference | yaml_metadata.py:64-67 | Building a table that nests an already registered one leaves that one unbuilt and only gives it a foreign key. |
| Generation.BuildMutual | yaml_metadata.py:64-89 | Building `a` that nests `b` that nests `a` registers `a`, then `b`, and gives each the other's foreign key. |
| Generation.MutualReference | yaml_metadata.py:84-89 | Two tables that nest each other are each built once, and each carries one foreign key to the other. |
| Generation.BuildItems | yaml_metadata.py:79-91 | A nested table is registered after its owner, with its key and then its ordinary column. |
| Generation.OwnerWithItems | yaml_metadata.py:84-91 | An owner with two ordinary columns and one nested table gives exactly the owner's key and columns in order, followed by the nested table, which ends with `<owner>_id`. |
| Generation.PeopleSchema | yaml_metadata.py:109-119 | The sample yields `people` = [id, firstName, lastName] and `items` = [id, description, people_id referencing people.id]. |
| Generation.BogusTypeFails | yaml_metadata.py:27-30 | A column of type `Bogus` fails with an error, and a message, naming the type and the column. |
| YamlMetadata.ForeignKeyNameAsWrittenDiffers | yaml_metadata.py:47-48 | The name the code formats is never the `<parent>_<key>` form, e.g. `people_people.id`. |

## Left out

- YAML parsing and the `!Table` tag dispatch (`yaml_metadata.py:5-15`, `:100`). The input is already a `TableDefinition` tree.
- SQLAlchemy's internals. `MetaData`, `Table` and `Column` become the registry above. `autoload=True, mustexist=True` (`:51`) becomes a lookup by name that fails when the table is missing.
- The type catalogue is a fixed set of fifteen generic types. It stands in for the names in `sqlalchemy.types`; type arguments (the Todo at `:22-25`) are not modelled.
- The foreign-key column has no type of its own (`None` at `:55`). The type SQLAlchemy later infers from the target is not modelled.
- The `primary_key=True` flag on a column is not modelled. The table's key column is recorded in the table itself.
- `print` calls (`:44`, `:121`) and the module-level `metadata` value have no counterpart. The sample is stated as a lemma instead.
- The registry after a failed build. Python leaves partially built tables behind; the model returns only the error.
- A nested table given as the key entry fails with `KeyIsTable`. Python would fail with an unknown-type error that quotes the object's printed form, which is not modelled.
- A missing key entry fails with `MissingKeyEntry`. This stands for the `KeyError` of the dictionary lookup at `:73`.
- `KeyRedefined` and `LinkRedefinesKey` stand for SQLAlchemy's `ArgumentError` on redefining a primary-key column. The model returns the first for an ordinary column named as the default key `id` (`:77`, `:91`). It returns the second for a foreign key named as its table's key (`:54-55`).
- Other column-name collisions within one table are appended, not replaced. What SQLAlchemy does with them depends on its version and is not modelled. They are:
  - two ordinary entries with one name;
  - a foreign key whose name an ordinary column already has;
  - one parent nesting the same child twice, which gives the child two identical foreign keys. SQLAlchemy 1.x keeps one.
- The deletion of the key entry from the caller's definition (`:75`). The model never changes a definition; it skips the key entry instead. So building the same definition object again into a fresh registry succeeds in the model. In Python, the entry is gone by then and the lookup at `:73` raises `KeyError`.
- Duplicate keys in a definition's mapping. YAML keeps the last; the model keeps the entries as given and skips every entry named as the key. This is the same as deleting the key entry (`:75`) when names are distinct.
- The foreign-key name formatted from the key column object (`:48`) is kept only as the as-written function of the finding below. The builder uses the intended name.

## Findings

| source | as written | input that shows it | evidently intended | confidence | as-written member | corrected member |
|---|---|---|---|---|---|---|
| yaml_metadata.py:48 | the foreign-key name formats the parent's key column object, which prints as `<table>.<column>` | the sample: parent `people` with key `id` gives `people_people.id` | `<parent>_<key name>`, as the comment at :47 and the lookup by `.name` at :55 say: `people_id` | medium, not executed (depends on how SQLAlchemy prints a table-bound column) | YamlMetadata.ForeignKeyNameAsWrittenDiffers | YamlMetadata.ConstructForeignKey |

=== FILE: column_types.dfy ===
/** The column type resolver: a fixed catalogue of generic column types,
    looked up by the name a table definition writes for them. */
module ColumnTypes {
  import opened Wrappers

  /** The generic column types the catalogue offers. */
  datatype SqlType =
    | BigInteger | Boolean | Date | DateTime | Float | Integer | Interval
    | LargeBinary | Numeric | SmallInteger | String | Text | Time
    | Unicode | UnicodeText

  /** The name under which a type is listed in the catalogue. */
  function TypeName(t: SqlType): string {
    match t
    case BigInteger => "BigInteger"
    case Boolean => "Boolean"
    case Date => "Date"
    case DateTime => "DateTime"
    case Float => "Float"
    case Integer => "Integer"
    case Interval => "Interval"
    case LargeBinary => "LargeBinary"
    case Numeric => "Numeric"
    case SmallInteger => "SmallInteger"
    case String => "String"
    case Text => "Text"
    case Time => "Time"
    case Unicode => "Unicode"
    case UnicodeText => "UnicodeText"
  }

  /** Looks a type name up in the catalogue. It finds the type listed under
      that name, and nothing when no type is listed under it. */
  function Resolve(name: string): (r: Option<SqlType>)
    ensures r.Some? ==> TypeName(r.value) == name
    ensures r.None? ==> forall t :: TypeName(t) != name
  {
    if name == "BigInteger" then Some(BigInteger)
    else if name == "Boolean" then Some(Boolean)
    else if name == "Date" then Some(Date)
    else if name == "DateTime" then Some(DateTime)
    else if name == "Float" then Some(Float)
    else if name == "Integer" then Some(Integer)
    else if name == "Interval" then Some(Interval)
    else if name == "LargeBinary" then Some(LargeBinary)
    else if name == "Numeric" then Some(Numeric)
    else if name == "SmallInteger" then Some(SmallInteger)
    else if name == "String" then Some(String)
    else if name == "Text" then Some(Text)
    else if name == "Time" then Some(Time)
    else if name == "Unicode" then Some(Unicode)
    else if name == "UnicodeText" then Some(UnicodeText)
    else None
  }

  /** Resolving a type's catalogue name gives back that type. */
  lemma ResolveTypeName(t: SqlType)
    ensures Resolve(TypeName(t)) == Some(t)
  {
  }
}

=== FILE: construct_proofs.dfy ===
/** What building a table does to the registry, proved by induction over the
    definition tree together with the column list of each node. */
module ConstructProofs {
  import opened Wrappers
  import opened ColumnTypes
  import opened Schema
  import opened YamlMetadata

  lemma GrowsKeepsHasKey(reg: Registry, reg': Registry, target: ColumnRef)
    requires Grows(reg, reg') && HasKey(reg, target)
    ensures HasKey(reg', target)
  {
    var k :| 0 <= k < |reg| && reg[k].name == target.table && reg[k].key.name == target.column;
    assert reg'[k].name == target.table && reg'[k].key.name == target.column;
  }

  lemma GrowsKeepsHasColumn(reg: Registry, reg': Registry, table: string, c: Column)
    requires Grows(reg, reg') && HasColumn(reg, table, c)
    ensures HasColumn(reg', table, c)
  {
    var k :| 0 <= k < |reg| && reg[k].name == table && c in reg[k].cols;
    assert reg[k].cols <= reg'[k].cols;
    assert c in reg'[k].cols;
  }

  lemma HasKeyContains(reg: Registry, target: ColumnRef)
    requires HasKey(reg, target)
    ensures Contains(reg, target.table)
  {
    var k :| 0 <= k < |reg| && reg[k].name == target.table && reg[k].key.name == target.column;
  }

  /** Registering a fresh table holding only its key keeps the registry well formed. */
  lemma RegisterWellFormed(reg: Registry, t: Table)
    requires WellFormed(reg) && !Contains(reg, t.name)
    requires t.cols == [t.key] && t.key.fk.None?
    ensures Register(reg, t).Success? && WellFormed(Register(reg, t).value)
  {
    var reg' := Register(reg, t).value;
    assert reg' == reg + [t];
    forall i, j | 0 <= i < |reg'| && 0 <= j < |reg'[i].cols| && reg'[i].cols[j].fk.Some?
      ensures reg'[i].cols[j] == ForeignKeyColumn(reg'[i].cols[j].fk.value)
      ensures HasKey(reg', reg'[i].cols[j].fk.value)
    {
      assert i < |reg|;
      GrowsKeepsHasKey(reg, reg', reg[i].cols[j].fk.value);
    }
  }

  /** Appending an ordinary column, or a foreign key to a registered key,
      keeps the registry well formed. */
  lemma AppendColumnWellFormed(reg: Registry, table: string, c: Column)
    requires WellFormed(reg) && Contains(reg, table)
    requires c.fk.None? || (c == ForeignKeyColumn(c.fk.value) && HasKey(reg, c.fk.value))
    ensures AppendColumn(reg, table, c).Success? && WellFormed(AppendColumn(reg, table, c).value)
  {
    var reg' := AppendColumn(reg, table, c).value;
    var k := Find(reg, table).value;
    forall i, j | 0 <= i < |reg'| && 0 <= j < |reg'[i].cols| && reg'[i].cols[j].fk.Some?
      ensures reg'[i].cols[j] == ForeignKeyColumn(reg'[i].cols[j].fk.value)
      ensures HasKey(reg', reg'[i].cols[j].fk.value)
    {
      if i == k && j == |reg[k].cols| {
        assert reg'[i].cols[j] == c;
        GrowsKeepsHasKey(reg, reg', c.fk.value);
      } else {
        assert j < |reg[i].cols| && reg'[i].cols[j] == reg[i].cols[j];
        GrowsKeepsHasKey(reg, reg', reg[i].cols[j].fk.value);
      }
    }
    forall i | 0 <= i < |reg'|
      ensures |reg'[i].cols| > 0 && reg'[i].cols[0] == reg'[i].key
    {
      assert reg[i].cols <= reg'[i].cols;
    }
  }

  // One step of the builder, unfolded.

  lemma UnfoldTable(d: TableDefinition, reg: Registry)
    requires !Contains(reg, d.name) && KeyColumn(d).Success?
    ensures var key := KeyColumn(d).value;
      ConstructTable(d, reg) == ConstructColumns(d, key, 0, reg + [Table(d.name, key, [key])])
  {
  }

  lemma UnfoldKeyEntry(d: TableDefinition, key: Column, i: nat, reg: Registry)
    requires i < |d.columns| && IsKeyEntry(d, d.columns[i].0)
    ensures ConstructColumns(d, key, i, reg) == ConstructColumns(d, key, i + 1, reg)
  {
  }

  lemma UnfoldPlain(d: TableDefinition, key: Column, i: nat, reg: Registry)
    requires i < |d.columns| && !IsKeyEntry(d, d.columns[i].0) && d.columns[i].1.ColumnSpec?
    requires Contains(reg, d.name)
    ensures var c := ConstructColumn(d.columns[i].0, d.columns[i].1.typeName);
      && (c.Failure? ==> ConstructColumns(d, key, i, reg) == Failure(c.error))
      && (c.Success? && d.columns[i].0 == key.name ==>
            ConstructColumns(d, key, i, reg) == Failure(KeyRedefined(d.columns[i].0)))
      && (c.Success? && d.columns[i].0 != key.name ==>
            ConstructColumns(d, key, i, reg)
            == ConstructColumns(d, key, i + 1, AppendColumn(reg, d.name, c.value).value))
  {
  }

  lemma UnfoldNested(d: TableDefinition, key: Column, i: nat, reg: Registry)
    requires i < |d.columns| && !IsKeyEntry(d, d.columns[i].0) && d.columns[i].1.Nested?
    ensures var child := d.columns[i].1.table;
      var t := ConstructTable(child, reg);
      && (t.Failure? ==> ConstructColumns(d, key, i, reg) == Failure(t.error))
      && (t.Success? ==> var f := ConstructForeignKey(d.name, key, child.name, t.value);
            && (f.Failure? ==> ConstructColumns(d, key, i, reg) == Failure(f.error))
            && (f.Success? ==> ConstructColumns(d, key, i, reg) == ConstructColumns(d, key, i + 1, f.value)))
  {
  }

  lemma UnfoldDone(d: TableDefinition, key: Column, reg: Registry)
    ensures ConstructColumns(d, key, |d.columns|, reg) == Success(reg)
  {
  }

  lemma UnfoldForeignKey(parent: string, key: Column, child: string, reg: Registry)
    requires ConstructForeignKey(parent, key, child, reg).Success?
    ensures ConstructForeignKey(parent, key, child, reg)
         == AppendColumn(reg, child, ForeignKeyColumn(ColumnRef(parent, key.name)))
  {
  }

  /** Appending to a table that sits between `front` and `back`, when no
      table in `front` has its name, changes that table alone. */
  lemma AppendAt(front: Registry, t: Table, back: Registry, c: Column)
    requires Find(front, t.name).None?
    ensures AppendColumn(front + [t] + back, t.name, c) == Success(front + [t.(cols := t.cols + [c])] + back)
  {
    var reg := front + [t] + back;
    FindAt(front, t, back);
    assert reg[|front|] == t;
    var t' := t.(cols := t.cols + [c]);
    assert reg[|front| := t'] == front + [t'] + back by {
      var lhs := reg[|front| := t'];
      var rhs := front + [t'] + back;
      assert |lhs| == |rhs|;
      forall j | 0 <= j < |lhs|
        ensures lhs[j] == rhs[j]
      {
        if j < |front| {
          assert lhs[j] == front[j];
        } else if j > |front| {
          assert lhs[j] == back[j - |front| - 1];
        }
      }
    }
  }

  /** A new table without a declared key is registered holding only `id`. */
  lemma FreshTableStep(d: TableDefinition, reg: Registry)
    requires !Contains(reg, d.name) && d.primaryKey.None?
    ensures ConstructTable(d, reg) == ConstructColumns(d, DefaultKey, 0, reg + [Table(d.name, DefaultKey, [DefaultKey])])
  {
    UnfoldTable(d, reg);
  }

  /** An ordinary column goes to the end of `d`'s own table. */
  lemma PlainStep(d: TableDefinition, key: Column, i: nat, front: Registry, t: Table, back: Registry)
    requires i < |d.columns| && !IsKeyEntry(d, d.columns[i].0) && d.columns[i].1.ColumnSpec?
    requires Resolve(d.columns[i].1.typeName).Some? && d.columns[i].0 != key.name
    requires t.name == d.name && Find(front, d.name).None?
    ensures ConstructColumns(d, key, i, front + [t] + back)
         == ConstructColumns(d, key, i + 1,
              front + [t.(cols := t.cols + [Column(d.columns[i].0, Resolve(d.columns[i].1.typeName), None)])] + back)
  {
    var reg := front + [t] + back;
    assert reg[|front|] == t;
    UnfoldPlain(d, key, i, reg);
    AppendAt(front, t, back, Column(d.columns[i].0, Resolve(d.columns[i].1.typeName), None));
  }

  /** After a nested child's tables are built, the child's table gets the
      foreign key to `d`'s key at its end. */
  lemma NestedStep(d: TableDefinition, key: Column, i: nat, reg: Registry, front: Registry, t: Table, back: Registry)
    requires i < |d.columns| && !IsKeyEntry(d, d.columns[i].0) && d.columns[i].1.Nested?
    requires ConstructTable(d.columns[i].1.table, reg) == Success(front + [t] + back)
    requires t.name == d.columns[i].1.table.name && Find(front, t.name).None?
    requires t.key.name != ForeignKeyColumn(ColumnRef(d.name, key.name)).name
    ensures ConstructColumns(d, key, i, reg)
         == ConstructColumns(d, key, i + 1,
              front + [t.(cols := t.cols + [ForeignKeyColumn(ColumnRef(d.name, key.name))])] + back)
  {
    UnfoldNested(d, key, i, reg);
    FindAt(front, t, back);
    UnfoldForeignKey(d.name, key, t.name, front + [t] + back);
    AppendAt(front, t, back, ForeignKeyColumn(ColumnRef(d.name, key.name)));
  }

  /** Building a table keeps the registry well formed: names stay unique,
      every table starts with its key, and every foreign key is named after,
      and points at, a registered primary key. */
  lemma {:induction false} ConstructTableWellFormed(d: TableDefinition, reg: Registry)
    requires WellFormed(reg) && ConstructTable(d, reg).Success?
    ensures WellFormed(ConstructTable(d, reg).value)
    decreases d, |d.columns| + 1
  {
    if !Contains(reg, d.name) {
      var key := KeyColumn(d).value;
      var t := Table(d.name, key, [key]);
      UnfoldTable(d, reg);
      RegisterWellFormed(reg, t);
      var reg1 := reg + [t];
      assert reg1 == Register(reg, t).value;
      assert reg1[|reg|] == t;
      assert HasKey(reg1, ColumnRef(d.name, key.name));
      ConstructColumnsWellFormed(d, key, 0, reg1);
    }
  }

  lemma {:induction false} ConstructColumnsWellFormed(d: TableDefinition, key: Column, i: nat, reg: Registry)
    requires i <= |d.columns|
    requires WellFormed(reg) && HasKey(reg, ColumnRef(d.name, key.name))
    requires ConstructColumns(d, key, i, reg).Success?
    ensures WellFormed(ConstructColumns(d, key, i, reg).value)
    decreases d, |d.columns| - i
  {
    if i < |d.columns| {
      if IsKeyEntry(d, d.columns[i].0) {
        UnfoldKeyEntry(d, key, i, reg);
        ConstructColumnsWellFormed(d, key, i + 1, reg);
      } else if d.columns[i].1.ColumnSpec? {
        WellFormedPlainStep(d, key, i, reg);
      } else {
        WellFormedNestedStep(d, key, i, reg);
      }
    }
  }

  lemma {:induction false} WellFormedPlainStep(d: TableDefinition, key: Column, i: nat, reg: Registry)
    requires i < |d.columns| && !IsKeyEntry(d, d.columns[i].0) && d.columns[i].1.ColumnSpec?
    requires WellFormed(reg) && HasKey(reg, ColumnRef(d.name, key.name))
    requires ConstructColumns(d, key, i, reg).Success?
    ensures WellFormed(ConstructColumns(d, key, i, reg).value)
    decreases d, |d.columns| - i, 0
  {
    var (name, value) := d.columns[i];
    var target := ColumnRef(d.name, key.name);
    HasKeyContains(reg, target);
    UnfoldPlain(d, key, i, reg);
    var c := ConstructColumn(name, value.typeName).value;
    AppendColumnWellFormed(reg, d.name, c);
    var reg1 := AppendColumn(reg, d.name, c).value;
    GrowsKeepsHasKey(reg, reg1, target);
    ConstructColumnsWellFormed(d, key, i + 1, reg1);
  }

  lemma {:induction false} WellFormedNestedStep(d: TableDefinition, key: Column, i: nat, reg: Registry)
    requires i < |d.columns| && !IsKeyEntry(d, d.columns[i].0) && d.columns[i].1.Nested?
    requires WellFormed(reg) && HasKey(reg, ColumnRef(d.name, key.name))
    requires ConstructColumns(d, key, i, reg).Success?
    ensures WellFormed(ConstructColumns(d, key, i, reg).value)
    decreases d, |d.columns| - i, 0
  {
    var child := d.columns[i].1.table;
    var target := ColumnRef(d.name, key.name);
    UnfoldNested(d, key, i, reg);
    ConstructTableWellFormed(child, reg);
    var reg1 := ConstructTable(child, reg).value;
    GrowsKeepsHasKey(reg, reg1, target);
    AppendColumnWellFormed(reg1, child.name, ForeignKeyColumn(target));
    UnfoldForeignKey(d.name, key, child.name, reg1);
    var reg2 := ConstructForeignKey(d.name, key, child.name, reg1).value;
    GrowsKeepsHasKey(reg1, reg2, target);
    ConstructColumnsWellFormed(d, key, i + 1, reg2);
  }

  /** What building entries `i..` of `d` did, going from `reg` to `reg'`,
      when `d`'s table sits at position `p`: other tables gained only foreign
      keys, `d`'s table gained exactly its own ordinary columns, every one of
      a catalogued type and none named as the key, and each nested child was
      linked back to `key`. */
  predicate ColumnsShaped(d: TableDefinition, key: Column, i: nat, reg: Registry, reg': Registry, p: nat)
    requires i <= |d.columns| && p < |reg| <= |reg'|
  {
    && (forall j :: 0 <= j < |reg| && j != p ==> NonForeign(reg'[j].cols) == NonForeign(reg[j].cols))
    && NonForeign(reg'[p].cols) == NonForeign(reg[p].cols) + OwnColumns(d, i)
    && OwnTypesKnown(d, i)
    && OwnNamesFree(d, key.name, i)
    && ChildrenLinked(d, key, i, reg')
  }

  lemma PlainStepShaped(d: TableDefinition, key: Column, i: nat, reg: Registry, reg1: Registry, reg': Registry, p: nat, c: Column)
    requires i < |d.columns| && !IsKeyEntry(d, d.columns[i].0) && d.columns[i].1.ColumnSpec?
    requires Resolve(d.columns[i].1.typeName).Some? && d.columns[i].0 != key.name
    requires c == Column(d.columns[i].0, Resolve(d.columns[i].1.typeName), None)
    requires p < |reg| == |reg1| <= |reg'|
    requires reg1[p].cols == reg[p].cols + [c]
    requires forall j :: 0 <= j < |reg| && j != p ==> reg1[j] == reg[j]
    requires ColumnsShaped(d, key, i + 1, reg1, reg', p)
    ensures ColumnsShaped(d, key, i, reg, reg', p)
  {
    PlainStepParent(d, i, reg[p].cols, reg1[p].cols, reg'[p].cols, c);
    PlainStepTypes(d, key.name, i);
    PlainStepLinks(d, key, i, reg');
  }

  lemma PlainStepParent(d: TableDefinition, i: nat, cols: seq<Column>, cols1: seq<Column>, cols': seq<Column>, c: Column)
    requires i < |d.columns| && !IsKeyEntry(d, d.columns[i].0) && d.columns[i].1.ColumnSpec?
    requires c == Column(d.columns[i].0, Resolve(d.columns[i].1.typeName), None)
    requires cols1 == cols + [c]
    requires NonForeign(cols') == NonForeign(cols1) + OwnColumns(d, i + 1)
    ensures NonForeign(cols') == NonForeign(cols) + OwnColumns(d, i)
  {
    calc {
      NonForeign(cols');
      NonForeign(cols + [c]) + OwnColumns(d, i + 1);
    == { NonForeignAppend(cols, [c]); assert NonForeign([c]) == [c]; }
      NonForeign(cols) + [c] + OwnColumns(d, i + 1);
    == { OwnColumnsPlain(d, i); }
      NonForeign(cols) + OwnColumns(d, i);
    }
  }

  lemma PlainStepTypes(d: TableDefinition, keyName: string, i: nat)
    requires i < |d.columns| && !IsKeyEntry(d, d.columns[i].0) && d.columns[i].1.ColumnSpec?
    requires Resolve(d.columns[i].1.typeName).Some? && d.columns[i].0 != keyName
    requires OwnTypesKnown(d, i + 1) && OwnNamesFree(d, keyName, i + 1)
    ensures OwnTypesKnown(d, i) && OwnNamesFree(d, keyName, i)
  {
  }

  lemma PlainStepLinks(d: TableDefinition, key: Column, i: nat, reg': Registry)
    requires i < |d.columns| && d.columns[i].1.ColumnSpec?
    requires ChildrenLinked(d, key, i + 1, reg')
    ensures ChildrenLinked(d, key, i, reg')
  {
  }

  lemma NestedStepShaped(d: TableDefinition, key: Column, i: nat, reg: Registry, reg2: Registry, reg': Registry, p: nat)
    requires i < |d.columns| && !IsKeyEntry(d, d.columns[i].0) && d.columns[i].1.Nested?
    requires p < |reg| <= |reg2| <= |reg'|
    requires forall j :: 0 <= j < |reg| ==> NonForeign(reg2[j].cols) == NonForeign(reg[j].cols)
    requires HasColumn(reg', d.columns[i].1.table.name, ForeignKeyColumn(ColumnRef(d.name, key.name)))
    requires ColumnsShaped(d, key, i + 1, reg2, reg', p)
    ensures ColumnsShaped(d, key, i, reg, reg', p)
  {
    assert OwnColumns(d, i) == OwnColumns(d, i + 1);
    forall j | i <= j < |d.columns| && d.columns[j].1.ColumnSpec? && !IsKeyEntry(d, d.columns[j].0)
      ensures Resolve(d.columns[j].1.typeName).Some?
    {
      assert OwnTypesKnown(d, i + 1);
    }
    forall j | i <= j < |d.columns| && d.columns[j].1.ColumnSpec? && !IsKeyEntry(d, d.columns[j].0)
      ensures d.columns[j].0 != key.name
    {
      assert OwnNamesFree(d, key.name, i + 1);
    }
    forall j | i <= j < |d.columns| && d.columns[j].1.Nested? && !IsKeyEntry(d, d.columns[j].0)
      ensures HasColumn(reg', d.columns[j].1.table.name, ForeignKeyColumn(ColumnRef(d.name, key.name)))
    {
      if j > i {
        assert ChildrenLinked(d, key, i + 1, reg');
      }
    }
  }

  /** Building a table only ever adds foreign keys to tables already
      registered. When `d` is new, its table is registered right after them,
      holds its key first and then exactly its own ordinary columns in
      declaration order (each of a catalogued type), and every nested child's
      table carries a foreign key to that key. No ordinary column takes the
      key's name. */
  lemma {:induction false} ConstructTableShape(d: TableDefinition, reg: Registry)
    requires ConstructTable(d, reg).Success?
    ensures var reg' := ConstructTable(d, reg).value;
      forall j :: 0 <= j < |reg| ==> NonForeign(reg'[j].cols) == NonForeign(reg[j].cols)
    ensures var reg' := ConstructTable(d, reg).value;
      !Contains(reg, d.name) ==>
        && KeyColumn(d).Success?
        && |reg'| > |reg|
        && reg'[|reg|].name == d.name
        && reg'[|reg|].key == KeyColumn(d).value
        && reg'[|reg|].cols[0] == KeyColumn(d).value
        && NonForeign(reg'[|reg|].cols) == [KeyColumn(d).value] + OwnColumns(d, 0)
        && OwnTypesKnown(d, 0)
        && OwnNamesFree(d, KeyColumn(d).value.name, 0)
        && ChildrenLinked(d, KeyColumn(d).value, 0, reg')
    decreases d, |d.columns| + 1
  {
    if !Contains(reg, d.name) {
      var key := KeyColumn(d).value;
      var t := Table(d.name, key, [key]);
      UnfoldTable(d, reg);
      var reg1 := reg + [t];
      assert Find(reg1, d.name) == Some(|reg|);
      ConstructColumnsShape(d, key, 0, reg1, |reg|);
      var reg' := ConstructTable(d, reg).value;
      assert ColumnsShaped(d, key, 0, reg1, reg', |reg|);
      assert NonForeign(reg1[|reg|].cols) == [key];
      assert Grows(reg1, reg');
      assert reg1[|reg|].cols <= reg'[|reg|].cols;
    }
  }

  lemma {:induction false} ConstructColumnsShape(d: TableDefinition, key: Column, i: nat, reg: Registry, p: nat)
    requires i <= |d.columns|
    requires Find(reg, d.name) == Some(p)
    requires ConstructColumns(d, key, i, reg).Success?
    ensures var reg' := ConstructColumns(d, key, i, reg).value;
      |reg| <= |reg'| && ColumnsShaped(d, key, i, reg, reg', p)
    decreases d, |d.columns| - i
  {
    var reg' := ConstructColumns(d, key, i, reg).value;
    if i == |d.columns| {
      assert OwnColumns(d, i) == [];
    } else if IsKeyEntry(d, d.columns[i].0) {
      UnfoldKeyEntry(d, key, i, reg);
      ConstructColumnsShape(d, key, i + 1, reg, p);
      assert OwnColumns(d, i) == OwnColumns(d, i + 1);
      assert ColumnsShaped(d, key, i + 1, reg, reg', p);
    } else if d.columns[i].1.ColumnSpec? {
      var (name, value) := d.columns[i];
      UnfoldPlain(d, key, i, reg);
      var c := ConstructColumn(name, value.typeName).value;
      var reg1 := AppendColumn(reg, d.name, c).value;
      GrowsKeepsFind(reg, reg1, d.name);
      ConstructColumnsShape(d, key, i + 1, reg1, p);
      PlainStepShaped(d, key, i, reg, reg1, reg', p, c);
    } else {
      var child := d.columns[i].1.table;
      UnfoldNested(d, key, i, reg);
      ConstructTableShape(child, reg);
      var reg1 := ConstructTable(child, reg).value;
      var reg2 := ConstructForeignKey(d.name, key, child.name, reg1).value;
      GrowsTransitive(reg, reg1, reg2);
      GrowsKeepsFind(reg, reg2, d.name);
      ConstructColumnsShape(d, key, i + 1, reg2, p);
      GrowsKeepsHasColumn(reg2, reg', child.name, ForeignKeyColumn(ColumnRef(d.name, key.name)));
      NestedStepShaped(d, key, i, reg, reg2, reg', p);
    }
  }

  /** Every table of `reg` that is neither called `d.name` nor nested, at
      any depth, in entries `i..` of `d` is the same in `reg'`. */
  predicate LeavesOthers(d: TableDefinition, i: nat, reg: Registry, reg': Registry)
    requires i <= |d.columns|
  {
    && |reg| <= |reg'|
    && forall q :: 0 <= q < |reg| && reg[q].name != d.name && !NestsName(d, i, reg[q].name) ==>
         reg'[q] == reg[q]
  }

  /** Building `d` touches only the tables of its own tree: every other table
      is left exactly as it was. When `d` is new and no table nested in it
      shares its name, its table holds exactly its key and then its own
      ordinary columns, foreign keys included in the count. */
  lemma {:induction false} ConstructTableFrame(d: TableDefinition, reg: Registry)
    requires ConstructTable(d, reg).Success?
    ensures LeavesOthers(d, 0, reg, ConstructTable(d, reg).value)
    ensures var reg' := ConstructTable(d, reg).value;
      !Contains(reg, d.name) && !NestsName(d, 0, d.name) ==>
        && KeyColumn(d).Success? && |reg'| > |reg|
        && reg'[|reg|].cols == [KeyColumn(d).value] + OwnColumns(d, 0)
    decreases d, |d.columns| + 1
  {
    if !Contains(reg, d.name) {
      var key := KeyColumn(d).value;
      var t := Table(d.name, key, [key]);
      UnfoldTable(d, reg);
      var reg1 := reg + [t];
      FindAt(reg, t, []);
      assert reg1 == reg + [t] + [];
      ConstructColumnsFrame(d, key, 0, reg1, |reg|);
      var reg' := ConstructTable(d, reg).value;
      forall q | 0 <= q < |reg| && reg[q].name != d.name && !NestsName(d, 0, reg[q].name)
        ensures reg'[q] == reg[q]
      {
        assert reg1[q] == reg[q];
      }
    }
  }

  /** Building entries `i..` of `d`, whose table sits at `p`, leaves alone
      every table outside `d`'s tree, and, when no table nested in those
      entries shares `d`'s name, appends to `d`'s table exactly its own
      ordinary columns. */
  lemma {:induction false} ConstructColumnsFrame(d: TableDefinition, key: Column, i: nat, reg: Registry, p: nat)
    requires i <= |d.columns|
    requires Find(reg, d.name) == Some(p)
    requires ConstructColumns(d, key, i, reg).Success?
    ensures LeavesOthers(d, i, reg, ConstructColumns(d, key, i, reg).value)
    ensures var reg' := ConstructColumns(d, key, i, reg).value;
      !NestsName(d, i, d.name) ==> reg'[p].cols == reg[p].cols + OwnColumns(d, i)
    decreases d, |d.columns| - i
  {
    if i == |d.columns| {
      assert reg[p].cols + OwnColumns(d, i) == reg[p].cols;
    } else if IsKeyEntry(d, d.columns[i].0) {
      UnfoldKeyEntry(d, key, i, reg);
      ConstructColumnsFrame(d, key, i + 1, reg, p);
      assert OwnColumns(d, i) == OwnColumns(d, i + 1);
    } else if d.columns[i].1.ColumnSpec? {
      FramePlainStep(d, key, i, reg, p);
    } else {
      FrameNestedStep(d, key, i, reg, p);
    }
  }

  lemma {:induction false} FramePlainStep(d: TableDefinition, key: Column, i: nat, reg: Registry, p: nat)
    requires i < |d.columns| && !IsKeyEntry(d, d.columns[i].0) && d.columns[i].1.ColumnSpec?
    requires Find(reg, d.name) == Some(p)
    requires ConstructColumns(d, key, i, reg).Success?
    ensures LeavesOthers(d, i, reg, ConstructColumns(d, key, i, reg).value)
    ensures var reg' := ConstructColumns(d, key, i, reg).value;
      !NestsName(d, i, d.name) ==> reg'[p].cols == reg[p].cols + OwnColumns(d, i)
    decreases d, |d.columns| - i, 0
  {
    var (name, value) := d.columns[i];
    UnfoldPlain(d, key, i, reg);
    var c := ConstructColumn(name, value.typeName).value;
    var reg1 := AppendColumn(reg, d.name, c).value;
    GrowsKeepsFind(reg, reg1, d.name);
    ConstructColumnsFrame(d, key, i + 1, reg1, p);
    FramePlainCombine(d, i, reg, reg1, ConstructColumns(d, key, i + 1, reg1).value, p, c);
  }

  /** The frame of entries `i + 1..` after appending entry `i`'s ordinary
      column to `d`'s table is the frame of entries `i..`. */
  lemma FramePlainCombine(d: TableDefinition, i: nat, reg: Registry, reg1: Registry, reg': Registry, p: nat, c: Column)
    requires i < |d.columns| && !IsKeyEntry(d, d.columns[i].0) && d.columns[i].1.ColumnSpec?
    requires c == PlainColumn(d.columns[i])
    requires p < |reg| == |reg1| && reg[p].name == d.name
    requires reg1[p].cols == reg[p].cols + [c]
    requires forall q :: 0 <= q < |reg| && q != p ==> reg1[q] == reg[q]
    requires LeavesOthers(d, i + 1, reg1, reg')
    requires !NestsName(d, i + 1, d.name) ==> reg'[p].cols == reg1[p].cols + OwnColumns(d, i + 1)
    ensures LeavesOthers(d, i, reg, reg')
    ensures !NestsName(d, i, d.name) ==> reg'[p].cols == reg[p].cols + OwnColumns(d, i)
  {
    forall q | 0 <= q < |reg| && reg[q].name != d.name && !NestsName(d, i, reg[q].name)
      ensures reg'[q] == reg[q]
    {
      assert q != p && !NestsName(d, i + 1, reg[q].name);
    }
    if !NestsName(d, i, d.name) {
      OwnColumnsPlain(d, i);
      assert reg1[p].cols + OwnColumns(d, i + 1) == reg[p].cols + OwnColumns(d, i);
    }
  }

  lemma {:induction false} FrameNestedStep(d: TableDefinition, key: Column, i: nat, reg: Registry, p: nat)
    requires i < |d.columns| && !IsKeyEntry(d, d.columns[i].0) && d.columns[i].1.Nested?
    requires Find(reg, d.name) == Some(p)
    requires ConstructColumns(d, key, i, reg).Success?
    ensures LeavesOthers(d, i, reg, ConstructColumns(d, key, i, reg).value)
    ensures var reg' := ConstructColumns(d, key, i, reg).value;
      !NestsName(d, i, d.name) ==> reg'[p].cols == reg[p].cols + OwnColumns(d, i)
    decreases d, |d.columns| - i, 0
  {
    var child := d.columns[i].1.table;
    UnfoldNested(d, key, i, reg);
    ConstructTableFrame(child, reg);
    var reg1 := ConstructTable(child, reg).value;
    var reg2 := ConstructForeignKey(d.name, key, child.name, reg1).value;
    var k := Find(reg1, child.name).value;
    GrowsTransitive(reg, reg1, reg2);
    GrowsKeepsFind(reg, reg2, d.name);
    ConstructColumnsFrame(d, key, i + 1, reg2, p);
    var reg' := ConstructColumns(d, key, i, reg).value;
    // a table outside the tree of entry `i` is neither rebuilt nor the child
    forall q | 0 <= q < |reg| && reg[q].name != child.name && !NestsName(child, 0, reg[q].name)
      ensures reg2[q] == reg[q]
    {
      assert reg1[q] == reg[q];
      assert reg1[k].name == child.name;
    }
    forall q | 0 <= q < |reg| && reg[q].name != d.name && !NestsName(d, i, reg[q].name)
      ensures reg'[q] == reg[q]
    {
      assert reg2[q] == reg[q];
    }
    if !NestsName(d, i, d.name) {
      assert reg2[p] == reg[p];
      assert OwnColumns(d, i) == OwnColumns(d, i + 1);
    }
  }

  /** Every table `reg'` adds after `reg` is called like a table nested, at
      any depth, in entries `i..` of `d`. */
  predicate AddsOnlyNested(d: TableDefinition, i: nat, reg: Registry, reg': Registry)
    requires i <= |d.columns|
  {
    && |reg| <= |reg'|
    && forall q :: |reg| <= q < |reg'| ==> NestsName(d, i, reg'[q].name)
  }

  /** A build registers only tables of its own definition tree: every table
      it adds is called `d.name` or like a table nested in `d`. */
  lemma {:induction false} ConstructTableNames(d: TableDefinition, reg: Registry)
    requires ConstructTable(d, reg).Success?
    ensures var reg' := ConstructTable(d, reg).value;
      forall q :: |reg| <= q < |reg'| ==> reg'[q].name == d.name || NestsName(d, 0, reg'[q].name)
    decreases d, |d.columns| + 1
  {
    if !Contains(reg, d.name) {
      var key := KeyColumn(d).value;
      var t := Table(d.name, key, [key]);
      UnfoldTable(d, reg);
      var reg1 := reg + [t];
      ConstructColumnsNames(d, key, 0, reg1);
      var reg' := ConstructTable(d, reg).value;
      forall q | |reg| <= q < |reg'|
        ensures reg'[q].name == d.name || NestsName(d, 0, reg'[q].name)
      {
        if q == |reg| {
          assert reg'[q].name == reg1[q].name;
        }
      }
    }
  }

  lemma {:induction false} ConstructColumnsNames(d: TableDefinition, key: Column, i: nat, reg: Registry)
    requires i <= |d.columns|
    requires ConstructColumns(d, key, i, reg).Success?
    ensures AddsOnlyNested(d, i, reg, ConstructColumns(d, key, i, reg).value)
    decreases d, |d.columns| - i
  {
    if i < |d.columns| {
      if IsKeyEntry(d, d.columns[i].0) {
        UnfoldKeyEntry(d, key, i, reg);
        ConstructColumnsNames(d, key, i + 1, reg);
        NestsNameLater(d, i);
      } else if d.columns[i].1.ColumnSpec? {
        NamesPlainStep(d, key, i, reg);
      } else {
        NamesNestedStep(d, key, i, reg);
      }
    }
  }

  /** A table nested in entries `i + 1..` is nested in entries `i..`. */
  lemma NestsNameLater(d: TableDefinition, i: nat)
    requires i < |d.columns|
    ensures forall name :: NestsName(d, i + 1, name) ==> NestsName(d, i, name)
  {
  }

  lemma {:induction false} NamesPlainStep(d: TableDefinition, key: Column, i: nat, reg: Registry)
    requires i < |d.columns| && !IsKeyEntry(d, d.columns[i].0) && d.columns[i].1.ColumnSpec?
    requires ConstructColumns(d, key, i, reg).Success?
    ensures AddsOnlyNested(d, i, reg, ConstructColumns(d, key, i, reg).value)
    decreases d, |d.columns| - i, 0
  {
    var (name, value) := d.columns[i];
    UnfoldPlain(d, key, i, reg);
    var c := ConstructColumn(name, value.typeName).value;
    var reg1 := AppendColumn(reg, d.name, c).value;
    ConstructColumnsNames(d, key, i + 1, reg1);
    NestsNameLater(d, i);
  }

  lemma {:induction false} NamesNestedStep(d: TableDefinition, key: Column, i: nat, reg: Registry)
    requires i < |d.columns| && !IsKeyEntry(d, d.columns[i].0) && d.columns[i].1.Nested?
    requires ConstructColumns(d, key, i, reg).Success?
    ensures AddsOnlyNested(d, i, reg, ConstructColumns(d, key, i, reg).value)
    decreases d, |d.columns| - i, 0
  {
    var child := d.columns[i].1.table;
    UnfoldNested(d, key, i, reg);
    ConstructTableNames(child, reg);
    var reg1 := ConstructTable(child, reg).value;
    var reg2 := ConstructForeignKey(d.name, key, child.name, reg1).value;
    ConstructColumnsNames(d, key, i + 1, reg2);
    var reg' := ConstructColumns(d, key, i, reg).value;
    assert Grows(reg1, reg') by {
      GrowsTransitive(reg1, reg2, reg');
    }
    forall q | |reg| <= q < |reg'|
      ensures NestsName(d, i, reg'[q].name)
    {
      if q < |reg1| {
        assert reg'[q].name == reg1[q].name;
        assert reg1[q].name == child.name || NestsName(child, 0, reg1[q].name);
      } else {
        assert NestsName(d, i + 1, reg'[q].name);
      }
    }
  }

  /** No build makes a column repeat its table's key name: a table whose
      key stood alone keeps it alone, and every new table has its key
      alone. */
  lemma {:induction false} ConstructTableKeysAlone(d: TableDefinition, reg: Registry)
    requires ConstructTable(d, reg).Success?
    ensures KeepsKeysAlone(reg, ConstructTable(d, reg).value)
    decreases d, |d.columns| + 1
  {
    if !Contains(reg, d.name) {
      var key := KeyColumn(d).value;
      var t := Table(d.name, key, [key]);
      UnfoldTable(d, reg);
      var reg1 := reg + [t];
      FindAt(reg, t, []);
      assert reg1 == reg + [t] + [];
      assert KeepsKeysAlone(reg, reg1) by {
        forall q | 0 <= q < |reg1| && (q < |reg| ==> KeyAlone(reg[q]))
          ensures KeyAlone(reg1[q])
        {
          if q < |reg| {
            assert reg1[q] == reg[q];
          }
        }
      }
      ConstructColumnsKeysAlone(d, key, 0, reg1, |reg|);
      KeepsKeysAloneTransitive(reg, reg1, ConstructTable(d, reg).value);
    }
  }

  lemma {:induction false} ConstructColumnsKeysAlone(d: TableDefinition, key: Column, i: nat, reg: Registry, p: nat)
    requires i <= |d.columns|
    requires Find(reg, d.name) == Some(p) && reg[p].key == key
    requires ConstructColumns(d, key, i, reg).Success?
    ensures KeepsKeysAlone(reg, ConstructColumns(d, key, i, reg).value)
    decreases d, |d.columns| - i
  {
    if i < |d.columns| {
      if IsKeyEntry(d, d.columns[i].0) {
        UnfoldKeyEntry(d, key, i, reg);
        ConstructColumnsKeysAlone(d, key, i + 1, reg, p);
      } else if d.columns[i].1.ColumnSpec? {
        KeysAlonePlainStep(d, key, i, reg, p);
      } else {
        KeysAloneNestedStep(d, key, i, reg, p);
      }
    }
  }

  lemma {:induction false} KeysAlonePlainStep(d: TableDefinition, key: Column, i: nat, reg: Registry, p: nat)
    requires i < |d.columns| && !IsKeyEntry(d, d.columns[i].0) && d.columns[i].1.ColumnSpec?
    requires Find(reg, d.name) == Some(p) && reg[p].key == key
    requires ConstructColumns(d, key, i, reg).Success?
    ensures KeepsKeysAlone(reg, ConstructColumns(d, key, i, reg).value)
    decreases d, |d.columns| - i, 0
  {
    var (name, value) := d.columns[i];
    UnfoldPlain(d, key, i, reg);
    var c := ConstructColumn(name, value.typeName).value;
    AppendKeepsKeysAlone(reg, d.name, c);
    var reg1 := AppendColumn(reg, d.name, c).value;
    GrowsKeepsFind(reg, reg1, d.name);
    ConstructColumnsKeysAlone(d, key, i + 1, reg1, p);
    KeepsKeysAloneTransitive(reg, reg1, ConstructColumns(d, key, i + 1, reg1).value);
  }

  lemma {:induction false} KeysAloneNestedStep(d: TableDefinition, key: Column, i: nat, reg: Registry, p: nat)
    requires i < |d.columns| && !IsKeyEntry(d, d.columns[i].0) && d.columns[i].1.Nested?
    requires Find(reg, d.name) == Some(p) && reg[p].key == key
    requires ConstructColumns(d, key, i, reg).Success?
    ensures KeepsKeysAlone(reg, ConstructColumns(d, key, i, reg).value)
    decreases d, |d.columns| - i, 0
  {
    var child := d.columns[i].1.table;
    UnfoldNested(d, key, i, reg);
    ConstructTableKeysAlone(child, reg);
    var reg1 := ConstructTable(child, reg).value;
    UnfoldForeignKey(d.name, key, child.name, reg1);
    AppendKeepsKeysAlone(reg1, child.name, ForeignKeyColumn(ColumnRef(d.name, key.name)));
    var reg2 := ConstructForeignKey(d.name, key, child.name, reg1).value;
    KeepsKeysAloneTransitive(reg, reg1, reg2);
    GrowsTransitive(reg, reg1, reg2);
    GrowsKeepsFind(reg, reg2, d.name);
    ConstructColumnsKeysAlone(d, key, i + 1, reg2, p);
    KeepsKeysAloneTransitive(reg, reg2, ConstructColumns(d, key, i + 1, reg2).value);
  }

  /** `e` is a definition error; an unknown type it reports was declared,
      under that column name, somewhere in the tree of `d`; a column it
      reports as clashing with a key is an ordinary column declared there;
      and a foreign key it reports as clashing with a key is one that the
      tree links back with. */
  ghost predicate ExplainedBy(d: TableDefinition, e: SchemaError) {
    && (e.UnknownType? || e.MissingKeyEntry? || e.KeyIsTable? || e.KeyRedefined? || e.LinkRedefinesKey?)
    && (e.UnknownType? ==> Declares(d, e.column, e.typeName) && Resolve(e.typeName).None?)
    && (e.KeyRedefined? ==> exists typeName :: Declares(d, e.column, typeName))
    && (e.LinkRedefinesKey? ==> Links(d, e.table, e.column))
  }

  lemma DeclaredHere(d: TableDefinition, j: nat, column: string, typeName: string)
    requires j < |d.columns| && d.columns[j] == (column, ColumnSpec(typeName))
    ensures Declares(d, column, typeName)
  {
  }

  lemma DeclaredInChild(d: TableDefinition, j: nat, e: SchemaError)
    requires j < |d.columns| && d.columns[j].1.Nested?
    requires ExplainedBy(d.columns[j].1.table, e)
    ensures ExplainedBy(d, e)
  {
    if e.KeyRedefined? {
      var typeName :| Declares(d.columns[j].1.table, e.column, typeName);
      assert Declares(d, e.column, typeName);
    } else if e.LinkRedefinesKey? {
      assert Links(d, e.table, e.column);
    }
  }

  /** The foreign key entry `j` links back with, if refused, is one `d`
      links with. */
  lemma LinkedHere(d: TableDefinition, j: nat, key: Column)
    requires j < |d.columns| && d.columns[j].1.Nested? && KeyColumn(d) == Success(key)
    ensures ExplainedBy(d, LinkRedefinesKey(d.columns[j].1.table.name, ForeignKeyColumn(ColumnRef(d.name, key.name)).name))
  {
  }

  /** A build fails only because of a definition error, or a foreign key
      that would redefine a key. An unknown type it reports was declared,
      under that column name, somewhere in the tree being built; so was a
      column it reports as redefining a key; and a refused foreign key is
      one the tree links back with. */
  lemma {:induction false} ConstructTableErrors(d: TableDefinition, reg: Registry)
    requires ConstructTable(d, reg).Failure?
    ensures var e := ConstructTable(d, reg).error;
      e.UnknownType? || e.MissingKeyEntry? || e.KeyIsTable? || e.KeyRedefined? || e.LinkRedefinesKey?
    ensures var e := ConstructTable(d, reg).error;
      e.UnknownType? ==> Declares(d, e.column, e.typeName) && Resolve(e.typeName).None?
    ensures var e := ConstructTable(d, reg).error;
      e.KeyRedefined? ==> exists typeName :: Declares(d, e.column, typeName)
    ensures var e := ConstructTable(d, reg).error;
      e.LinkRedefinesKey? ==> Links(d, e.table, e.column)
    decreases d, |d.columns| + 1
  {
    var key := KeyColumn(d);
    if key.Failure? {
      var e := key.error;
      if e.UnknownType? {
        var k := d.primaryKey.value;
        assert (k, ColumnSpec(e.typeName)) in d.columns;
        var j :| 0 <= j < |d.columns| && d.columns[j] == (k, ColumnSpec(e.typeName));
        DeclaredHere(d, j, e.column, e.typeName);
      }
    } else {
      UnfoldTable(d, reg);
      var reg1 := reg + [Table(d.name, key.value, [key.value])];
      assert Contains(reg1, d.name) by {
        assert reg1[|reg|].name == d.name;
      }
      ConstructColumnsErrors(d, key.value, 0, reg1);
      assert ExplainedBy(d, ConstructColumns(d, key.value, 0, reg1).error);
    }
  }

  lemma {:induction false} ConstructColumnsErrors(d: TableDefinition, key: Column, i: nat, reg: Registry)
    requires i <= |d.columns|
    requires Contains(reg, d.name) && KeyColumn(d) == Success(key)
    requires ConstructColumns(d, key, i, reg).Failure?
    ensures ExplainedBy(d, ConstructColumns(d, key, i, reg).error)
    decreases d, |d.columns| - i
  {
    if IsKeyEntry(d, d.columns[i].0) {
      UnfoldKeyEntry(d, key, i, reg);
      ConstructColumnsErrors(d, key, i + 1, reg);
    } else if d.columns[i].1.ColumnSpec? {
      ErrorsPlainStep(d, key, i, reg);
    } else {
      ErrorsNestedStep(d, key, i, reg);
    }
  }

  lemma {:induction false} ErrorsPlainStep(d: TableDefinition, key: Column, i: nat, reg: Registry)
    requires i < |d.columns| && !IsKeyEntry(d, d.columns[i].0) && d.columns[i].1.ColumnSpec?
    requires Contains(reg, d.name) && KeyColumn(d) == Success(key)
    requires ConstructColumns(d, key, i, reg).Failure?
    ensures ExplainedBy(d, ConstructColumns(d, key, i, reg).error)
    decreases d, |d.columns| - i, 0
  {
    var (name, value) := d.columns[i];
    UnfoldPlain(d, key, i, reg);
    var c := ConstructColumn(name, value.typeName);
    if c.Success? && name != key.name {
      var reg1 := AppendColumn(reg, d.name, c.value).value;
      GrowsKeepsFind(reg, reg1, d.name);
      ConstructColumnsErrors(d, key, i + 1, reg1);
    } else {
      PlainEntryErrors(d, i, c);
    }
  }

  /** Both ways an ordinary entry can fail are explained by the entry. */
  lemma PlainEntryErrors(d: TableDefinition, i: nat, c: Result<Column, SchemaError>)
    requires i < |d.columns| && d.columns[i].1.ColumnSpec?
    requires c == ConstructColumn(d.columns[i].0, d.columns[i].1.typeName)
    ensures c.Failure? ==> ExplainedBy(d, c.error)
    ensures ExplainedBy(d, KeyRedefined(d.columns[i].0))
  {
    DeclaredHere(d, i, d.columns[i].0, d.columns[i].1.typeName);
  }

  lemma {:induction false} ErrorsNestedStep(d: TableDefinition, key: Column, i: nat, reg: Registry)
    requires i < |d.columns| && !IsKeyEntry(d, d.columns[i].0) && d.columns[i].1.Nested?
    requires Contains(reg, d.name) && KeyColumn(d) == Success(key)
    requires ConstructColumns(d, key, i, reg).Failure?
    ensures ExplainedBy(d, ConstructColumns(d, key, i, reg).error)
    decreases d, |d.columns| - i, 0
  {
    var child := d.columns[i].1.table;
    UnfoldNested(d, key, i, reg);
    var reg1 := ConstructTable(child, reg);
    if reg1.Failure? {
      ConstructTableErrors(child, reg);
      assert ExplainedBy(child, reg1.error);
      DeclaredInChild(d, i, reg1.error);
    } else {
      var f := ConstructForeignKey(d.name, key, child.name, reg1.value);
      if f.Failure? {
        LinkedHere(d, i, key);
      } else {
        GrowsTransitive(reg, reg1.value, f.value);
        GrowsKeepsFind(reg, f.value, d.name);
        ConstructColumnsErrors(d, key, i + 1, f.value);
      }
    }
  }
}

=== FILE: generation.dfy ===
/** Building a whole schema from one root definition, and the behaviour the
    builder promises for whole definitions: the key comes first, rebuilding
    is a no-op, cycles end, unknown types fail, and the sample schema. */
module Generation {
  import opened Wrappers
  import opened ColumnTypes
  import opened Schema
  import opened YamlMetadata
  import opened ConstructProofs

  /** Builds the schema of one root definition into a fresh registry. The
      root's table comes first, with its key and then its own columns (and
      nothing else unless a table nested in it has the root's name); the
      registry is well formed; no table has a second column named as its
      key; and a failure is always a definition error or a refused foreign
      key. */
  function GenerateMetadata(root: TableDefinition): (r: Result<Registry, SchemaError>)
    ensures r.Success? ==> WellFormed(r.value)
    ensures r.Success? ==> && |r.value| > 0 && r.value[0].name == root.name
                           && KeyColumn(root).Success?
                           && NonForeign(r.value[0].cols) == [KeyColumn(root).value] + OwnColumns(root, 0)
    ensures r.Success? && !NestsName(root, 0, root.name) ==>
              r.value[0].cols == [KeyColumn(root).value] + OwnColumns(root, 0)
    ensures r.Success? ==> forall q :: 0 <= q < |r.value| ==> KeyAlone(r.value[q])
    ensures r.Success? ==> forall q :: 0 <= q < |r.value| ==>
              r.value[q].name == root.name || NestsName(root, 0, r.value[q].name)
    ensures r.Failure? ==>
              || r.error.UnknownType? || r.error.MissingKeyEntry? || r.error.KeyIsTable?
              || r.error.KeyRedefined? || r.error.LinkRedefinesKey?
  {
    var r := ConstructTable(root, []);
    if r.Success? then
      ConstructTableWellFormed(root, []);
      ConstructTableShape(root, []);
      ConstructTableFrame(root, []);
      ConstructTableKeysAlone(root, []);
      ConstructTableNames(root, []);
      r
    else
      ConstructTableErrors(root, []);
      r
  }

  /** The column of each entry, position by position: the reference a
      definition of ordinary columns alone should produce. */
  function PlainColumns(entries: seq<(string, ColumnValue)>): (r: seq<Column>)
    requires forall j :: 0 <= j < |entries| ==> entries[j].1.ColumnSpec?
    ensures |r| == |entries|
    ensures forall j :: 0 <= j < |r| ==> r[j] == PlainColumn(entries[j])
  {
    if |entries| == 0 then [] else [PlainColumn(entries[0])] + PlainColumns(entries[1..])
  }

  /** When entries `i..` are all ordinary, non-key columns, a table's own
      columns are exactly those entries, in declaration order, each named as
      declared and typed by the catalogue. */
  lemma {:induction false} OwnColumnsInDeclarationOrder(d: TableDefinition, i: nat)
    requires i <= |d.columns|
    requires forall j :: i <= j < |d.columns| ==> d.columns[j].1.ColumnSpec? && !IsKeyEntry(d, d.columns[j].0)
    ensures OwnColumns(d, i) == PlainColumns(d.columns[i..])
    decreases |d.columns| - i
  {
    if i < |d.columns| {
      OwnColumnsInDeclarationOrder(d, i + 1);
      OwnColumnsPlain(d, i);
      assert d.columns[i..][1..] == d.columns[i + 1..];
    } else {
      assert d.columns[i..] == [];
    }
  }

  /** None of a table's own columns repeats an explicit key's name. */
  lemma {:induction false} OwnColumnsAvoidKey(d: TableDefinition, i: nat)
    requires i <= |d.columns| && d.primaryKey.Some?
    ensures forall j :: 0 <= j < |OwnColumns(d, i)| ==> OwnColumns(d, i)[j].name != d.primaryKey.value
    decreases |d.columns| - i
  {
    if i < |d.columns| {
      OwnColumnsAvoidKey(d, i + 1);
    }
  }

  /** None of a table's own columns is called `name` when no ordinary entry
      is. */
  lemma {:induction false} OwnColumnsAvoidName(d: TableDefinition, i: nat, name: string)
    requires i <= |d.columns| && OwnNamesFree(d, name, i)
    ensures forall j :: 0 <= j < |OwnColumns(d, i)| ==> OwnColumns(d, i)[j].name != name
    decreases |d.columns| - i
  {
    if i < |d.columns| {
      OwnColumnsAvoidName(d, i + 1, name);
    }
  }

  /** A newly built table starts with its primary key: the declared key
      entry with its catalogued type, or else an integer `id`. The key's name
      is not repeated among the table's later columns, ordinary or foreign. */
  lemma PrimaryKeyFirst(d: TableDefinition, reg: Registry)
    requires !Contains(reg, d.name) && ConstructTable(d, reg).Success?
    ensures var reg' := ConstructTable(d, reg).value;
      && |reg'| > |reg| && reg'[|reg|].name == d.name
      && |reg'[|reg|].cols| > 0 && reg'[|reg|].cols[0] == reg'[|reg|].key
    ensures var t := ConstructTable(d, reg).value[|reg|];
      d.primaryKey.None? ==> t.key == DefaultKey
    ensures var t := ConstructTable(d, reg).value[|reg|];
      d.primaryKey.Some? ==>
        && t.key.name == d.primaryKey.value && t.key.fk.None? && t.key.ty.Some?
        && Lookup(d.columns, d.primaryKey.value) == Some(ColumnSpec(TypeName(t.key.ty.value)))
    ensures var t := ConstructTable(d, reg).value[|reg|];
      && NonForeign(t.cols)[0] == t.key
      && forall j :: 0 < j < |NonForeign(t.cols)| ==> NonForeign(t.cols)[j].name != t.key.name
    ensures var t := ConstructTable(d, reg).value[|reg|];
      forall j :: 0 < j < |t.cols| ==> t.cols[j].name != t.key.name
  {
    ConstructTableShape(d, reg);
    ConstructTableKeysAlone(d, reg);
    var t := ConstructTable(d, reg).value[|reg|];
    OwnColumnsAvoidName(d, 0, t.key.name);
    var own := OwnColumns(d, 0);
    assert NonForeign(t.cols) == [t.key] + own;
    forall j | 0 < j < |NonForeign(t.cols)|
      ensures NonForeign(t.cols)[j].name != t.key.name
    {
      assert NonForeign(t.cols)[j] == own[j - 1];
    }
  }

  /** Building a definition whose table already exists changes nothing, so
      building the same root a second time is a no-op. */
  lemma RebuildIsNoOp(d: TableDefinition, reg: Registry)
    requires ConstructTable(d, reg).Success?
    ensures var reg' := ConstructTable(d, reg).value;
      ConstructTable(d, reg') == Success(reg')
  {
  }

  /** An ordinary column of unknown type in a new table makes the build fail. */
  lemma UnknownTypeFailsBuild(d: TableDefinition, reg: Registry, j: nat)
    requires !Contains(reg, d.name)
    requires j < |d.columns| && d.columns[j].1.ColumnSpec? && !IsKeyEntry(d, d.columns[j].0)
    requires Resolve(d.columns[j].1.typeName).None?
    ensures ConstructTable(d, reg).Failure?
  {
    if ConstructTable(d, reg).Success? {
      ConstructTableShape(d, reg);
      assert false;
    }
  }

  /** A new table without a declared key whose ordinary entry is called `id`
      fails: that entry would redefine the default key column. */
  lemma KeyClashFailsBuild(d: TableDefinition, reg: Registry, j: nat)
    requires !Contains(reg, d.name) && d.primaryKey.None?
    requires j < |d.columns| && d.columns[j].1.ColumnSpec? && d.columns[j].0 == DefaultKeyName
    ensures ConstructTable(d, reg).Failure?
  {
    if ConstructTable(d, reg).Success? {
      ConstructTableShape(d, reg);
      assert false;
    }
  }

  /** A child whose declared key is named like the foreign key its parent
      links it with, `<parent>_id`: the build fails on that foreign key
      instead of giving the child a second column with its key's name. */
  lemma LinkClashFailsBuild(parent: string, entry: string, child: string, reg: Registry)
    requires parent != child && !Contains(reg, parent) && !Contains(reg, child)
    ensures var link := parent + "_" + DefaultKeyName;
      ConstructTable(TableDefinition(parent, None, [(entry, Nested(TableDefinition(child, Some(link), [(link, ColumnSpec("Integer"))])))]), reg)
      == Failure(LinkRedefinesKey(child, link))
  {
    var link := parent + "_" + DefaultKeyName;
    var dc := TableDefinition(child, Some(link), [(link, ColumnSpec("Integer"))]);
    var d := TableDefinition(parent, None, [(entry, Nested(dc))]);
    var tp := Table(parent, DefaultKey, [DefaultKey]);
    var key := Column(link, Some(Integer), None);
    var tc := Table(child, key, [key]);
    assert Resolve("Integer") == Some(Integer);
    assert KeyColumn(dc) == Success(key);
    FindPastOther(reg, tp, child);
    assert ConstructTable(dc, reg + [tp]) == Success(reg + [tp] + [tc]) by {
      UnfoldTable(dc, reg + [tp]);
      UnfoldKeyEntry(dc, key, 0, reg + [tp] + [tc]);
      UnfoldDone(dc, key, reg + [tp] + [tc]);
    }
    FindAt(reg + [tp], tc, []);
    assert reg + [tp] + [tc] == reg + [tp] + [tc] + [];
    FreshTableStep(d, reg);
    UnfoldNested(d, DefaultKey, 0, reg + [tp]);
  }

  /** A table that nests itself: the inner occurrence is not built again,
      whatever it declares, and the one table gets a foreign key to its own
      key. */
  lemma SelfReference(name: string, entry: string, inner: TableDefinition, reg: Registry)
    requires inner.name == name && !Contains(reg, name)
    ensures ConstructTable(TableDefinition(name, None, [(entry, Nested(inner))]), reg)
         == Success(reg + [Table(name, DefaultKey, [DefaultKey, Column(name + "_id", None, Some(ColumnRef(name, "id")))])])
  {
    var d := TableDefinition(name, None, [(entry, Nested(inner))]);
    var t := Table(name, DefaultKey, [DefaultKey]);
    var fk := ForeignKeyColumn(ColumnRef(name, "id"));
    var t' := t.(cols := t.cols + [fk]);
    assert ConstructTable(inner, reg + [t]) == Success(reg + [t] + []) by {
      assert reg + [t] == reg + [t] + [];
      FindAt(reg, t, []);
    }
    calc {
      ConstructTable(d, reg);
    == { FreshTableStep(d, reg); }
      ConstructColumns(d, DefaultKey, 0, reg + [t]);
    == { NestedStep(d, DefaultKey, 0, reg + [t], reg, t, []); }
      ConstructColumns(d, DefaultKey, 1, reg + [t'] + []);
    == { UnfoldDone(d, DefaultKey, reg + [t'] + []); }
      Success(reg + [t'] + []);
    == { assert reg + [t'] + [] == reg + [t'];
         assert name + "_" + "id" == name + "_id";
         assert [DefaultKey] + [fk] == [DefaultKey, fk]; }
      Success(reg + [Table(name, DefaultKey, [DefaultKey, Column(name + "_id", None, Some(ColumnRef(name, "id")))])]);
    }
  }

  /** Building `b` right after `a`, where `b` nests `a` again: `b` is
      registered holding only its key and `a`, already there, gets `b`'s
      foreign key. */
  lemma BuildBackReference(a: string, b: string, ea: string, inner: TableDefinition, reg: Registry)
    requires a != b && inner.name == a && !Contains(reg, a) && !Contains(reg, b)
    ensures var ta := Table(a, DefaultKey, [DefaultKey]);
      ConstructTable(TableDefinition(b, None, [(ea, Nested(inner))]), reg + [ta])
      == Success(reg + [ta.(cols := ta.cols + [ForeignKeyColumn(ColumnRef(b, "id"))])] + [Table(b, DefaultKey, [DefaultKey])])
  {
    var db := TableDefinition(b, None, [(ea, Nested(inner))]);
    var ta := Table(a, DefaultKey, [DefaultKey]);
    var tb := Table(b, DefaultKey, [DefaultKey]);
    var ta' := ta.(cols := ta.cols + [ForeignKeyColumn(ColumnRef(b, "id"))]);
    FindPastOther(reg, ta, b);
    assert ConstructTable(inner, reg + [ta] + [tb]) == Success(reg + [ta] + [tb]) by {
      FindAt(reg, ta, [tb]);
    }
    calc {
      ConstructTable(db, reg + [ta]);
    == { FreshTableStep(db, reg + [ta]); }
      ConstructColumns(db, DefaultKey, 0, reg + [ta] + [tb]);
    == { NestedStep(db, DefaultKey, 0, reg + [ta] + [tb], reg, ta, [tb]); }
      ConstructColumns(db, DefaultKey, 1, reg + [ta'] + [tb]);
    == { UnfoldDone(db, DefaultKey, reg + [ta'] + [tb]); }
      Success(reg + [ta'] + [tb]);
    }
  }

  /** Building `a`, which nests `b`, which nests `a` again: `a` is
      registered, then `b`, and then each gets the other's foreign key. */
  lemma BuildMutual(a: string, b: string, ea: string, eb: string, inner: TableDefinition, reg: Registry)
    requires a != b && inner.name == a && !Contains(reg, a) && !Contains(reg, b)
    ensures ConstructTable(TableDefinition(a, None, [(eb, Nested(TableDefinition(b, None, [(ea, Nested(inner))])))]), reg)
         == Success(reg + [Table(a, DefaultKey, [DefaultKey] + [ForeignKeyColumn(ColumnRef(b, "id"))])]
                        + [Table(b, DefaultKey, [DefaultKey] + [ForeignKeyColumn(ColumnRef(a, "id"))])] + [])
  {
    var db := TableDefinition(b, None, [(ea, Nested(inner))]);
    var da := TableDefinition(a, None, [(eb, Nested(db))]);
    var ta := Table(a, DefaultKey, [DefaultKey]);
    var tb := Table(b, DefaultKey, [DefaultKey]);
    var ta' := ta.(cols := ta.cols + [ForeignKeyColumn(ColumnRef(b, "id"))]);
    var tb' := tb.(cols := tb.cols + [ForeignKeyColumn(ColumnRef(a, "id"))]);
    assert Find(reg + [ta'], b).None? by {
      FindPastOther(reg, ta', b);
    }
    assert ConstructTable(db, reg + [ta]) == Success(reg + [ta'] + [tb] + []) by {
      BuildBackReference(a, b, ea, inner, reg);
      assert reg + [ta'] + [tb] == reg + [ta'] + [tb] + [];
    }
    calc {
      ConstructTable(da, reg);
    == { FreshTableStep(da, reg); }
      ConstructColumns(da, DefaultKey, 0, reg + [ta]);
    == { NestedStep(da, DefaultKey, 0, reg + [ta], reg + [ta'], tb, []); }
      ConstructColumns(da, DefaultKey, 1, reg + [ta'] + [tb'] + []);
    == { UnfoldDone(da, DefaultKey, reg + [ta'] + [tb'] + []); }
      Success(reg + [ta'] + [tb'] + []);
    }
  }

  /** Two tables that nest each other: both are built once, each gets one
      foreign key to the other. */
  lemma MutualReference(a: string, b: string, ea: string, eb: string, inner: TableDefinition, reg: Registry)
    requires a != b && inner.name == a && !Contains(reg, a) && !Contains(reg, b)
    ensures ConstructTable(TableDefinition(a, None, [(eb, Nested(TableDefinition(b, None, [(ea, Nested(inner))])))]), reg)
         == Success(reg + [Table(a, DefaultKey, [DefaultKey, Column(b + "_id", None, Some(ColumnRef(b, "id")))]),
                           Table(b, DefaultKey, [DefaultKey, Column(a + "_id", None, Some(ColumnRef(a, "id")))])])
  {
    BuildMutual(a, b, ea, eb, inner, reg);
    MutualTables(a, b, reg);
  }

  /** The two tables of `BuildMutual`, with their foreign keys written out. */
  lemma MutualTables(a: string, b: string, reg: Registry)
    ensures reg + [Table(a, DefaultKey, [DefaultKey] + [ForeignKeyColumn(ColumnRef(b, "id"))])]
                + [Table(b, DefaultKey, [DefaultKey] + [ForeignKeyColumn(ColumnRef(a, "id"))])] + []
         == reg + [Table(a, DefaultKey, [DefaultKey, Column(b + "_id", None, Some(ColumnRef(b, "id")))]),
                   Table(b, DefaultKey, [DefaultKey, Column(a + "_id", None, Some(ColumnRef(a, "id")))])]
  {
    assert a + "_" + "id" == a + "_id";
    assert b + "_" + "id" == b + "_id";
    var fkA := ForeignKeyColumn(ColumnRef(a, "id"));
    var fkB := ForeignKeyColumn(ColumnRef(b, "id"));
    assert [DefaultKey] + [fkA] == [DefaultKey, fkA];
    assert [DefaultKey] + [fkB] == [DefaultKey, fkB];
  }

  /** An item table with one ordinary column, built after its owner's
      table: it is registered after the owner holding its key and column. */
  lemma BuildItems(owner: Table, item: string, c3: string, t3: string)
    requires owner.name != item && Resolve(t3).Some? && c3 != DefaultKeyName
    ensures ConstructTable(TableDefinition(item, None, [(c3, ColumnSpec(t3))]), [owner])
         == Success([owner] + [Table(item, DefaultKey, [DefaultKey, Column(c3, Resolve(t3), None)])] + [])
  {
    var items := TableDefinition(item, None, [(c3, ColumnSpec(t3))]);
    var i0 := Table(item, DefaultKey, [DefaultKey]);
    var i1 := i0.(cols := i0.cols + [Column(c3, Resolve(t3), None)]);
    assert Find([owner], item).None?;
    calc {
      ConstructTable(items, [owner]);
    == { FreshTableStep(items, [owner]); }
      ConstructColumns(items, DefaultKey, 0, [owner] + [i0]);
    == { assert [owner] + [i0] == [owner] + [i0] + [];
         PlainStep(items, DefaultKey, 0, [owner], i0, []); }
      ConstructColumns(items, DefaultKey, 1, [owner] + [i1] + []);
    == { UnfoldDone(items, DefaultKey, [owner] + [i1] + []); }
      Success([owner] + [i1] + []);
    == { assert [DefaultKey] + [Column(c3, Resolve(t3), None)] == [DefaultKey, Column(c3, Resolve(t3), None)]; }
      Success([owner] + [Table(item, DefaultKey, [DefaultKey, Column(c3, Resolve(t3), None)])] + []);
    }
  }

  /** An owner table with two ordinary columns and one nested item table
      with one ordinary column: the owner is registered first with its key
      and columns in order, then the item table, which ends with the foreign
      key `<owner>_id` to the owner's key. */
  lemma OwnerWithItems(owner: string, item: string, c1: string, t1: string, c2: string, t2: string,
                       entry: string, c3: string, t3: string)
    requires owner != item
    requires Resolve(t1).Some? && Resolve(t2).Some? && Resolve(t3).Some?
    requires c1 != DefaultKeyName && c2 != DefaultKeyName && c3 != DefaultKeyName
    ensures ConstructTable(TableDefinition(owner, None, [(c1, ColumnSpec(t1)), (c2, ColumnSpec(t2)),
              (entry, Nested(TableDefinition(item, None, [(c3, ColumnSpec(t3))])))]), [])
         == Success([
              Table(owner, DefaultKey, [DefaultKey, Column(c1, Resolve(t1), None), Column(c2, Resolve(t2), None)]),
              Table(item, DefaultKey, [DefaultKey, Column(c3, Resolve(t3), None),
                                     Column(owner + "_id", None, Some(ColumnRef(owner, "id")))])])
  {
    var items := TableDefinition(item, None, [(c3, ColumnSpec(t3))]);
    var d := TableDefinition(owner, None, [(c1, ColumnSpec(t1)), (c2, ColumnSpec(t2)), (entry, Nested(items))]);
    var first := Column(c1, Resolve(t1), None);
    var second := Column(c2, Resolve(t2), None);
    var link := ForeignKeyColumn(ColumnRef(owner, "id"));
    var p0 := Table(owner, DefaultKey, [DefaultKey]);
    var p1 := p0.(cols := p0.cols + [first]);
    var p2 := p1.(cols := p1.cols + [second]);
    var i1 := Table(item, DefaultKey, [DefaultKey, Column(c3, Resolve(t3), None)]);
    var i2 := i1.(cols := i1.cols + [link]);
    calc {
      ConstructTable(d, []);
    == { FreshTableStep(d, []); }
      ConstructColumns(d, DefaultKey, 0, [] + [p0]);
    == { assert [] + [p0] == [] + [p0] + [];
         PlainStep(d, DefaultKey, 0, [], p0, []); }
      ConstructColumns(d, DefaultKey, 1, [] + [p1] + []);
    == { PlainStep(d, DefaultKey, 1, [], p1, []); }
      ConstructColumns(d, DefaultKey, 2, [] + [p2] + []);
    == { assert [] + [p2] + [] == [p2];
         BuildItems(p2, item, c3, t3);
         NestedStep(d, DefaultKey, 2, [p2], [p2], i1, []); }
      ConstructColumns(d, DefaultKey, 3, [p2] + [i2] + []);
    == { UnfoldDone(d, DefaultKey, [p2] + [i2] + []); }
      Success([p2] + [i2] + []);
    == { assert owner + "_" + "id" == owner + "_id";
         assert [DefaultKey] + [first] + [second] == [DefaultKey, first, second];
         assert [DefaultKey, Column(c3, Resolve(t3), None)] + [link]
             == [DefaultKey, Column(c3, Resolve(t3), None), link];
         assert [p2] + [i2] + [] == [p2, i2]; }
      Success([
        Table(owner, DefaultKey, [DefaultKey, Column(c1, Resolve(t1), None), Column(c2, Resolve(t2), None)]),
        Table(item, DefaultKey, [DefaultKey, Column(c3, Resolve(t3), None),
                               Column(owner + "_id", None, Some(ColumnRef(owner, "id")))])]);
    }
  }

  /** The sample schema: people with a first and last name, each owning
      items with a description. */
  const People := TableDefinition("people", None, [
    ("firstName", ColumnSpec("String")),
    ("lastName", ColumnSpec("String")),
    ("inventory", Nested(TableDefinition("items", None, [("description", ColumnSpec("String"))])))])

  /** The sample yields `people` = [id, firstName, lastName] and then
      `items` = [id, description, people_id referencing people.id]. */
  lemma PeopleSchema()
    ensures GenerateMetadata(People) == Success([
      Table("people", DefaultKey, [DefaultKey, Column("firstName", Some(String), None), Column("lastName", Some(String), None)]),
      Table("items", DefaultKey, [DefaultKey, Column("description", Some(String), None),
                                Column("people_id", None, Some(ColumnRef("people", "id")))])])
  {
    assert Resolve("String") == Some(String);
    OwnerWithItems("people", "items", "firstName", "String", "lastName", "String", "inventory", "description", "String");
    assert "people" + "_id" == "people_id";
    assert GenerateMetadata(People) == ConstructTable(People, []);
  }

  /** A new table without a declared key whose first entry is an ordinary
      column of unknown type fails with that type and column. */
  lemma FirstColumnUnknown(d: TableDefinition, reg: Registry)
    requires !Contains(reg, d.name) && d.primaryKey.None?
    requires |d.columns| > 0 && d.columns[0].1.ColumnSpec? && Resolve(d.columns[0].1.typeName).None?
    ensures ConstructTable(d, reg) == Failure(UnknownType(d.columns[0].1.typeName, d.columns[0].0))
  {
    var reg1 := reg + [Table(d.name, DefaultKey, [DefaultKey])];
    FreshTableStep(d, reg);
    assert Contains(reg1, d.name) by {
      assert reg1[|reg|].name == d.name;
    }
    UnfoldPlain(d, DefaultKey, 0, reg1);
  }

  /** A column of type `Bogus` fails the build with an error, and a message,
      naming both the type and the column. */
  lemma BogusTypeFails()
    ensures GenerateMetadata(TableDefinition("t", None, [("x", ColumnSpec("Bogus"))]))
         == Failure(UnknownType("Bogus", "x"))
    ensures Mentions(UnknownTypeMessage("Bogus", "x"), "\"Bogus\"")
    ensures Mentions(UnknownTypeMessage("Bogus", "x"), "\"x\"")
  {
    var d := TableDefinition("t", None, [("x", ColumnSpec("Bogus"))]);
    assert Resolve("Bogus").None?;
    FirstColumnUnknown(d, []);
    UnknownTypeMessageNamesBoth("Bogus", "x");
    assert "\"" + "Bogus" + "\"" == "\"Bogus\"";
    assert "\"" + "x" + "\"" == "\"x\"";
  }
}

=== FILE: schema.dfy ===
/** The relational schema the builder fills in: tables with a primary key and
    ordered columns, held in a registry keyed by table name and kept in
    registration order. */
module Schema {
  import opened Wrappers
  import opened ColumnTypes

  /** Everything that can make a schema build fail. */
  datatype SchemaError =
    | UnknownType(typeName: string, column: string)  // type name not in the catalogue
    | MissingKeyEntry(column: string)                // declared key has no column entry
    | KeyIsTable(column: string)                     // declared key names a nested table
    | KeyRedefined(column: string)                   // ordinary column named as the table's key
    | LinkRedefinesKey(table: string, column: string) // foreign key named as its table's key
    | TableNotFound(table: string)                   // registry lookup miss
    | DuplicateTable(table: string)                  // registering a name twice

  /** The diagnostic text of an unknown-type failure. */
  function UnknownTypeMessage(typeName: string, column: string): string {
    "Unknown type \"" + typeName + "\" in column \"" + column + "\""
  }

  /** `word` occurs in `text` starting at position `i`. */
  predicate OccursAt(text: string, word: string, i: int) {
    0 <= i <= |text| - |word| && text[i..i + |word|] == word
  }

  /** `word` occurs somewhere inside `text`. */
  ghost predicate Mentions(text: string, word: string) {
    exists i :: OccursAt(text, word, i)
  }

  /** The message of an unknown-type failure quotes both the offending type
      name and the column that declared it. */
  lemma UnknownTypeMessageNamesBoth(typeName: string, column: string)
    ensures Mentions(UnknownTypeMessage(typeName, column), "\"" + typeName + "\"")
    ensures Mentions(UnknownTypeMessage(typeName, column), "\"" + column + "\"")
  {
    var m := UnknownTypeMessage(typeName, column);
    var q1 := "\"" + typeName + "\"";
    var q2 := "\"" + column + "\"";
    var prefix := "Unknown type ";
    var middle := " in column ";
    assert m == prefix + q1 + middle + q2;
    assert OccursAt(m, q1, |prefix|);
    var at := |prefix| + |q1| + |middle|;
    assert OccursAt(m, q2, at);
  }

  /** A column of a table, by table name and column name. */
  datatype ColumnRef = ColumnRef(table: string, column: string)

  /** A constructed column. Plain columns carry a resolved type; a foreign-key
      column carries no type of its own (it takes the referenced column's) and
      names its target. */
  datatype Column = Column(name: string, ty: Option<SqlType>, fk: Option<ColumnRef>)

  /** A constructed table: its primary key, and all its columns in order. */
  datatype Table = Table(name: string, key: Column, cols: seq<Column>)

  /** Tables in registration order. */
  type Registry = seq<Table>

  /** The foreign-key column that links a child table to the key `target`:
      it is named `<table>_<key>`. */
  function ForeignKeyColumn(target: ColumnRef): Column {
    Column(target.table + "_" + target.column, None, Some(target))
  }

  /** The position of the first table called `name`. */
  function Find(reg: Registry, name: string): (r: Option<nat>)
    ensures r.Some? ==> r.value < |reg| && reg[r.value].name == name
    ensures r.Some? ==> forall j :: 0 <= j < r.value ==> reg[j].name != name
    ensures r.None? <==> forall j :: 0 <= j < |reg| ==> reg[j].name != name
  {
    if |reg| == 0 then None
    else if reg[0].name == name then Some(0)
    else match Find(reg[1..], name)
      case None => None
      case Some(k) => Some(k + 1)
  }

  /** The first table called `name` is the one `Find` returns. */
  lemma FindIs(reg: Registry, name: string, k: nat)
    requires k < |reg| && reg[k].name == name
    requires forall j :: 0 <= j < k ==> reg[j].name != name
    ensures Find(reg, name) == Some(k)
  {
  }

  /** A table that no earlier table shares a name with is found where it sits. */
  lemma FindAt(front: Registry, t: Table, back: Registry)
    requires Find(front, t.name).None?
    ensures Find(front + [t] + back, t.name) == Some(|front|)
  {
    var reg := front + [t] + back;
    assert reg[|front|] == t;
    forall j | 0 <= j < |front|
      ensures reg[j].name != t.name
    {
      assert reg[j] == front[j];
    }
    FindIs(reg, t.name, |front|);
  }

  /** Adding a table under another name does not make `name` appear. */
  lemma FindPastOther(reg: Registry, t: Table, name: string)
    requires Find(reg, name).None? && t.name != name
    ensures Find(reg + [t], name).None?
  {
    var reg' := reg + [t];
    forall j | 0 <= j < |reg'|
      ensures reg'[j].name != name
    {
      if j < |reg| {
        assert reg'[j] == reg[j];
      }
    }
  }

  predicate Contains(reg: Registry, name: string) {
    Find(reg, name).Some?
  }

  /** No table name is registered twice. */
  predicate Unique(reg: Registry) {
    forall i, j :: 0 <= i < j < |reg| ==> reg[i].name != reg[j].name
  }

  /** Every table starts with its primary-key column. */
  predicate KeysFirst(reg: Registry) {
    forall i :: 0 <= i < |reg| ==> |reg[i].cols| > 0 && reg[i].cols[0] == reg[i].key
  }

  /** Some registered table is called `target.table` and has the primary key
      `target.column`. */
  predicate HasKey(reg: Registry, target: ColumnRef) {
    exists k :: 0 <= k < |reg| && reg[k].name == target.table && reg[k].key.name == target.column
  }

  /** Some registered table called `table` holds column `c`. */
  predicate HasColumn(reg: Registry, table: string, c: Column) {
    exists k :: 0 <= k < |reg| && reg[k].name == table && c in reg[k].cols
  }

  /** Every foreign-key column is named after its target and points at the
      primary key of a registered table. */
  predicate ForeignKeysResolve(reg: Registry) {
    forall i, j :: 0 <= i < |reg| && 0 <= j < |reg[i].cols| && reg[i].cols[j].fk.Some? ==>
      reg[i].cols[j] == ForeignKeyColumn(reg[i].cols[j].fk.value) && HasKey(reg, reg[i].cols[j].fk.value)
  }

  /** The registry invariant the builder maintains. */
  predicate WellFormed(reg: Registry) {
    Unique(reg) && KeysFirst(reg) && ForeignKeysResolve(reg)
  }

  /** No column after the first repeats the table's key name. */
  predicate KeyAlone(t: Table) {
    forall j :: 0 < j < |t.cols| ==> t.cols[j].name != t.key.name
  }

  /** Every table of `reg` whose key stands alone still has it alone in
      `reg'`, and so has every table `reg'` adds. */
  predicate KeepsKeysAlone(reg: Registry, reg': Registry) {
    && |reg| <= |reg'|
    && forall q :: 0 <= q < |reg'| && (q < |reg| ==> KeyAlone(reg[q])) ==> KeyAlone(reg'[q])
  }

  lemma KeepsKeysAloneTransitive(a: Registry, b: Registry, c: Registry)
    requires KeepsKeysAlone(a, b) && KeepsKeysAlone(b, c)
    ensures KeepsKeysAlone(a, c)
  {
    forall q | 0 <= q < |c| && (q < |a| ==> KeyAlone(a[q]))
      ensures KeyAlone(c[q])
    {
      if q < |b| {
        assert KeyAlone(b[q]);
      }
    }
  }

  /** `reg'` is `reg` with possibly more tables after it and possibly more
      columns appended to existing tables; names and keys never change. */
  predicate Grows(reg: Registry, reg': Registry) {
    && |reg| <= |reg'|
    && forall i :: 0 <= i < |reg| ==>
         reg'[i].name == reg[i].name && reg'[i].key == reg[i].key && reg[i].cols <= reg'[i].cols
  }

  /** The columns that are not foreign keys, in order. */
  function NonForeign(cols: seq<Column>): seq<Column> {
    if |cols| == 0 then []
    else (if cols[0].fk.None? then [cols[0]] else []) + NonForeign(cols[1..])
  }

  lemma {:induction false} NonForeignAppend(a: seq<Column>, b: seq<Column>)
    ensures NonForeign(a + b) == NonForeign(a) + NonForeign(b)
  {
    if |a| == 0 {
      assert a + b == b;
    } else {
      var head := if a[0].fk.None? then [a[0]] else [];
      assert (a + b)[0] == a[0];
      assert (a + b)[1..] == a[1..] + b;
      assert NonForeign(a + b) == head + NonForeign(a[1..] + b);
      assert NonForeign(a) == head + NonForeign(a[1..]);
      NonForeignAppend(a[1..], b);
    }
  }

  /** Adds a table under a name not yet registered. */
  function Register(reg: Registry, t: Table): (r: Result<Registry, SchemaError>)
    ensures r.Failure? <==> Contains(reg, t.name)
    ensures r.Failure? ==> r.error == DuplicateTable(t.name)
    ensures r.Success? ==> Grows(reg, r.value) && |r.value| == |reg| + 1 && r.value[|reg|] == t
    ensures r.Success? ==> r.value[..|reg|] == reg
  {
    if Contains(reg, t.name) then Failure(DuplicateTable(t.name)) else Success(reg + [t])
  }

  /** Appends a column to the end of the table called `table`; every other
      table, and the columns already there, stay as they were. */
  function AppendColumn(reg: Registry, table: string, c: Column): (r: Result<Registry, SchemaError>)
    ensures r.Failure? <==> !Contains(reg, table)
    ensures r.Failure? ==> r.error == TableNotFound(table)
    ensures r.Success? ==> Grows(reg, r.value) && |r.value| == |reg|
    ensures r.Success? ==> var k := Find(reg, table).value;
      && r.value[k].cols == reg[k].cols + [c]
      && forall j :: 0 <= j < |reg| && j != k ==> r.value[j] == reg[j]
  {
    match Find(reg, table)
    case None => Failure(TableNotFound(table))
    case Some(k) => Success(reg[k := reg[k].(cols := reg[k].cols + [c])])
  }

  /** Appending a column not named as its table's key keeps every key alone. */
  lemma AppendKeepsKeysAlone(reg: Registry, table: string, c: Column)
    requires Contains(reg, table) && c.name != reg[Find(reg, table).value].key.name
    ensures KeepsKeysAlone(reg, AppendColumn(reg, table, c).value)
  {
    var k := Find(reg, table).value;
    var reg' := AppendColumn(reg, table, c).value;
    forall q | 0 <= q < |reg'| && KeyAlone(reg[q])
      ensures KeyAlone(reg'[q])
    {
      if q == k {
        forall j | 0 < j < |reg'[q].cols|
          ensures reg'[q].cols[j].name != reg'[q].key.name
        {
          if j < |reg[q].cols| {
            assert reg'[q].cols[j] == reg[q].cols[j];
          }
        }
      }
    }
  }

  lemma GrowsTransitive(a: Registry, b: Registry, c: Registry)
    requires Grows(a, b) && Grows(b, c)
    ensures Grows(a, c)
  {
  }

  lemma GrowsKeepsFind(reg: Registry, reg': Registry, name: string)
    requires Grows(reg, reg') && Contains(reg, name)
    ensures Find(reg', name) == Find(reg, name)
  {
    var k := Find(reg, name).value;
    forall j | 0 <= j < k
      ensures reg'[j].name != name
    {
      assert reg'[j].name == reg[j].name;
    }
    FindIs(reg', name, k);
  }
}

=== FILE: wrappers.dfy ===
/** Failure-compatible wrappers used throughout the model: an optional value
    and a result that is either a value or an error. Both work with `:-`. */
module Wrappers {

  datatype Option<+T> = None | Some(value: T)

  datatype Result<+T, +E> = Success(value: T) | Failure(error: E) {

    predicate IsFailure() {
      Failure?
    }

    function PropagateFailure<U>(): Result<U, E>
      requires Failure?
    {
      Failure(error)
    }

    function Extract(): T
      requires Success?
    {
      value
    }
  }
}

=== FILE: yaml_metadata.dfy ===
/** The schema builder: turns a nested table definition into registered
    tables, synthesising primary keys and the foreign keys that nesting
    implies. */
module YamlMetadata {
  import opened Wrappers
  import opened ColumnTypes
  import opened Schema

  /** One node of the definition tree: a table name, an optional explicit
      primary-key column, and its column entries in declaration order. An
      entry is either a column type name or a nested "has-many" child table.
      A cyclic definition graph appears here as a child that repeats an
      ancestor's (or its own) name. */
  datatype TableDefinition = TableDefinition(
    name: string, primaryKey: Option<string>, columns: seq<(string, ColumnValue)>)

  datatype ColumnValue = ColumnSpec(typeName: string) | Nested(table: TableDefinition)

  /** The name of the key column when none is declared. */
  const DefaultKeyName := "id"

  /** The key column when none is declared: an integer called `id`. */
  const DefaultKey := Column(DefaultKeyName, Some(Integer), None)

  /** The entry declared under `name`, the first one if several are. */
  function Lookup(cols: seq<(string, ColumnValue)>, name: string): (r: Option<ColumnValue>)
    ensures r.Some? ==> (name, r.value) in cols
    ensures r.None? <==> forall j :: 0 <= j < |cols| ==> cols[j].0 != name
  {
    if |cols| == 0 then None
    else if cols[0].0 == name then Some(cols[0].1)
    else Lookup(cols[1..], name)
  }

  /** The entry called `name` is the declared key, consumed by the key and
      therefore not added again as an ordinary column. */
  predicate IsKeyEntry(d: TableDefinition, name: string) {
    d.primaryKey == Some(name)
  }

  /** The column an ordinary entry describes, typed by the catalogue. */
  function PlainColumn(entry: (string, ColumnValue)): Column
    requires entry.1.ColumnSpec?
  {
    Column(entry.0, Resolve(entry.1.typeName), None)
  }

  /** The ordinary columns that entries `i..` of `d` contribute to `d`'s own
      table, in declaration order, each typed by the catalogue. */
  function OwnColumns(d: TableDefinition, i: nat): seq<Column>
    requires i <= |d.columns|
    decreases |d.columns| - i
  {
    if i == |d.columns| then []
    else
      var (name, value) := d.columns[i];
      if IsKeyEntry(d, name) || value.Nested? then OwnColumns(d, i + 1)
      else [PlainColumn(d.columns[i])] + OwnColumns(d, i + 1)
  }

  /** An ordinary, non-key entry contributes its column ahead of the rest. */
  lemma OwnColumnsPlain(d: TableDefinition, i: nat)
    requires i < |d.columns| && d.columns[i].1.ColumnSpec? && !IsKeyEntry(d, d.columns[i].0)
    ensures OwnColumns(d, i)
         == [PlainColumn(d.columns[i])] + OwnColumns(d, i + 1)
  {
  }

  /** Every ordinary column among entries `i..` of `d` names a catalogued type. */
  predicate OwnTypesKnown(d: TableDefinition, i: nat) {
    forall j :: i <= j < |d.columns| && d.columns[j].1.ColumnSpec? && !IsKeyEntry(d, d.columns[j].0) ==>
      Resolve(d.columns[j].1.typeName).Some?
  }

  /** No ordinary column among entries `i..` of `d` is named `keyName`. */
  predicate OwnNamesFree(d: TableDefinition, keyName: string, i: nat) {
    forall j :: i <= j < |d.columns| && d.columns[j].1.ColumnSpec? && !IsKeyEntry(d, d.columns[j].0) ==>
      d.columns[j].0 != keyName
  }

  /** Entries `i..` are free of `keyName` when entry `i` is and the rest are. */
  lemma OwnNamesFreeStep(d: TableDefinition, keyName: string, i: nat)
    requires i < |d.columns|
    ensures && (d.columns[i].1.ColumnSpec? && !IsKeyEntry(d, d.columns[i].0) ==> d.columns[i].0 != keyName)
            && OwnNamesFree(d, keyName, i + 1)
            ==> OwnNamesFree(d, keyName, i)
  {
  }

  /** Some table nested, at any depth, in entries `i..` of `d` is called `name`. */
  predicate NestsName(d: TableDefinition, i: nat, name: string)
    requires i <= |d.columns|
    decreases d, |d.columns| - i
  {
    if i == |d.columns| then false
    else
      || (d.columns[i].1.Nested? &&
          (d.columns[i].1.table.name == name || NestsName(d.columns[i].1.table, 0, name)))
      || NestsName(d, i + 1, name)
  }

  /** Every nested child among entries `i..` of `d` holds, in `reg`, the
      foreign-key column that points at `d`'s key. */
  predicate ChildrenLinked(d: TableDefinition, key: Column, i: nat, reg: Registry) {
    forall j :: i <= j < |d.columns| && d.columns[j].1.Nested? && !IsKeyEntry(d, d.columns[j].0) ==>
      HasColumn(reg, d.columns[j].1.table.name, ForeignKeyColumn(ColumnRef(d.name, key.name)))
  }

  /** Some table anywhere in the tree of `d` declares `column` with type name
      `typeName`. */
  ghost predicate Declares(d: TableDefinition, column: string, typeName: string)
    decreases d
  {
    exists j :: 0 <= j < |d.columns| &&
      (d.columns[j] == (column, ColumnSpec(typeName)) ||
       (d.columns[j].1.Nested? && Declares(d.columns[j].1.table, column, typeName)))
  }

  /** Some definition in the tree of `d` nests a table called `table` and
      links it back with a foreign key called `column`. */
  ghost predicate Links(d: TableDefinition, table: string, column: string)
    decreases d
  {
    exists j :: 0 <= j < |d.columns| && d.columns[j].1.Nested? &&
      ((d.columns[j].1.table.name == table && KeyColumn(d).Success? &&
        column == ForeignKeyColumn(ColumnRef(d.name, KeyColumn(d).value.name)).name) ||
       Links(d.columns[j].1.table, table, column))
  }

  /** A column of catalogued type `typeName`. An unknown type fails with an
      error naming both the type and the column. */
  function ConstructColumn(name: string, typeName: string): (r: Result<Column, SchemaError>)
    ensures r.Success? <==> Resolve(typeName).Some?
    ensures r.Success? ==> && r.value.name == name && r.value.fk.None?
                           && r.value.ty.Some? && TypeName(r.value.ty.value) == typeName
    ensures r.Failure? ==> r.error == UnknownType(typeName, name)
  {
    match Resolve(typeName)
    case Some(t) => Success(Column(name, Some(t), None))
    case None => Failure(UnknownType(typeName, name))
  }

  /** The primary-key column of `d`: its declared key entry, or else a
      default integer column called `id`. */
  function KeyColumn(d: TableDefinition): (r: Result<Column, SchemaError>)
    ensures d.primaryKey.None? ==> r == Success(Column("id", Some(Integer), None))
    ensures d.primaryKey.Some? && Lookup(d.columns, d.primaryKey.value).None? ==>
              r == Failure(MissingKeyEntry(d.primaryKey.value))
    ensures d.primaryKey.Some? && r.Success? ==>
              && r.value.name == d.primaryKey.value && r.value.fk.None? && r.value.ty.Some?
              && Lookup(d.columns, d.primaryKey.value) == Some(ColumnSpec(TypeName(r.value.ty.value)))
    ensures d.primaryKey.Some? && Lookup(d.columns, d.primaryKey.value).Some?
            && Lookup(d.columns, d.primaryKey.value).value.Nested? ==>
              r == Failure(KeyIsTable(d.primaryKey.value))
    ensures d.primaryKey.Some? && Lookup(d.columns, d.primaryKey.value).Some?
            && Lookup(d.columns, d.primaryKey.value).value.ColumnSpec? ==>
              var typeName := Lookup(d.columns, d.primaryKey.value).value.typeName;
              && (r.Success? <==> Resolve(typeName).Some?)
              && (r.Failure? ==> r.error == UnknownType(typeName, d.primaryKey.value))
    ensures r.Failure? ==> r.error.UnknownType? || r.error.MissingKeyEntry? || r.error.KeyIsTable?
  {
    match d.primaryKey
    case None => Success(DefaultKey)
    case Some(k) =>
      match Lookup(d.columns, k)
      case None => Failure(MissingKeyEntry(k))
      case Some(Nested(_)) => Failure(KeyIsTable(k))
      case Some(ColumnSpec(typeName)) => ConstructColumn(k, typeName)
  }

  /** Appends to the child table `child` a column named
      `<parent>_<parent key>` that references the parent's key. A column so
      named would redefine the child's own key, and fails. */
  function ConstructForeignKey(parent: string, key: Column, child: string, reg: Registry)
    : (r: Result<Registry, SchemaError>)
    ensures !Contains(reg, child) ==> r == Failure(TableNotFound(child))
    ensures Contains(reg, child) ==> var k := Find(reg, child).value;
      && (r.Failure? <==> reg[k].key.name == parent + "_" + key.name)
      && (r.Failure? ==> r.error == LinkRedefinesKey(child, parent + "_" + key.name))
    ensures r.Success? ==> Grows(reg, r.value) && |r.value| == |reg|
    ensures r.Success? ==>
      HasColumn(r.value, child, Column(parent + "_" + key.name, None, Some(ColumnRef(parent, key.name))))
    ensures r.Success? ==> forall i :: 0 <= i < |reg| ==> NonForeign(r.value[i].cols) == NonForeign(reg[i].cols)
    ensures r.Success? ==> var k := Find(reg, child).value;
      && r.value[k].cols == reg[k].cols + [Column(parent + "_" + key.name, None, Some(ColumnRef(parent, key.name)))]
      && forall j :: 0 <= j < |reg| && j != k ==> r.value[j] == reg[j]
  {
    var c := ForeignKeyColumn(ColumnRef(parent, key.name));
    match Find(reg, child)
    case None => Failure(TableNotFound(child))
    case Some(k) =>
      if reg[k].key.name == c.name then Failure(LinkRedefinesKey(child, c.name))
      else
        NonForeignAppend(reg[k].cols, [c]);
        AppendColumn(reg, child, c)
  }

  /** The foreign-key name as the code computes it: it formats the parent's
      key column itself, which prints qualified by its table as
      `<table>.<column>`, rather than the key's bare name. */
  function ForeignKeyNameAsWritten(target: ColumnRef): string {
    target.table + "_" + target.table + "." + target.column
  }

  /** The name as computed is never the `<parent>_<key>` form the builder
      promises: for the key `people.id` it is `people_people.id`. */
  lemma ForeignKeyNameAsWrittenDiffers(target: ColumnRef)
    ensures ForeignKeyNameAsWritten(target) != ForeignKeyColumn(target).name
    ensures ForeignKeyNameAsWritten(ColumnRef("people", "id")) == "people_people.id"
  {
  }

  /** Builds the table `d` and, depth first, every table nested in it. A
      name already registered is left alone; otherwise the key is fixed and
      the table registered before any other column is added. */
  function ConstructTable(d: TableDefinition, reg: Registry): (r: Result<Registry, SchemaError>)
    decreases d, |d.columns| + 1
    ensures Contains(reg, d.name) ==> r == Success(reg)
    ensures r.Success? ==> Grows(reg, r.value) && Contains(r.value, d.name)
    ensures !Contains(reg, d.name) && KeyColumn(d).Failure? ==> r == Failure(KeyColumn(d).error)
  {
    if Contains(reg, d.name) then Success(reg)
    else
      var key :- KeyColumn(d);
      match Register(reg, Table(d.name, key, [key]))
      case Failure(e) => Failure(e)
      case Success(reg1) => ConstructColumns(d, key, 0, reg1)
  }

  /** Adds entries `i..` of `d` to the registered table `d.name`: ordinary
      columns to `d` itself, and for each nested child first the child's
      tables and then the child's foreign key to `d`. An ordinary entry
      named as the key would redefine the key column and fails. */
  function ConstructColumns(d: TableDefinition, key: Column, i: nat, reg: Registry)
    : (r: Result<Registry, SchemaError>)
    requires i <= |d.columns|
    decreases d, |d.columns| - i
    ensures r.Success? ==> Grows(reg, r.value)
    ensures r.Success? ==> OwnNamesFree(d, key.name, i)
  {
    if i == |d.columns| then Success(reg)
    else
      OwnNamesFreeStep(d, key.name, i);
      var (name, value) := d.columns[i];
      if IsKeyEntry(d, name) then ConstructColumns(d, key, i + 1, reg)
      else match value
        case ColumnSpec(typeName) =>
          var c :- ConstructColumn(name, typeName);
          if name == key.name then Failure(KeyRedefined(name))
          else
            var reg1 :- AppendColumn(reg, d.name, c);
            ConstructColumns(d, key, i + 1, reg1)
        case Nested(child) =>
          var reg1 :- ConstructTable(child, reg);
          match ConstructForeignKey(d.name, key, child.name, reg1)
          case Failure(e) => Failure(e)
          case Success(reg2) => ConstructColumns(d, key, i + 1, reg2)
  }
}
